=== FILE: README.md ===
# Mongator article repository and message query, modelled in Dafny

Mongator is a PHP object-document mapper for MongoDB. Its code generator emits a
repository class and a query class per document type. This project models two
of these generated classes:

- the `Article` repository (`tests/Model/Base/ArticleRepository.php`);
- the `Message` query (`tests/Model/Base/MessageQuery.php`).

Each works against the identity map of its own document class (the article
repository's, the message repository's); the model's `IdentityMap` stands for
one such map. The map keeps one live document object per stored row, filed
under the row id's 24-digit hexadecimal string.

The model consists of these modules:

- `Ids` (`ids.dfy`):
  - a twelve-byte object id and its string form, with a proof that parsing undoes printing;
  - the field values a row can hold, and PHP truthiness on them;
  - the errors the core raises.
- `Seqs` (`seqs.dfy`): `array_unique` (first occurrence kept) and `array_diff`.
- `Storage` (`storage.dfy`):
  - the collection, as rows in natural order plus a log of driver calls;
  - every driver call (`batchInsert`, `update`, `remove`, remove-where-in, `$pull`-in) as a step on the rows;
  - the class invariant that the rows are the replay of the log.
- `Documents` (`documents.dfy`):
  - the document object (id, `isNew`, modified flag, fields);
  - the identity map, and its coherence invariant: each entry is a persisted document filed under its own id's string.
- `ArticleRepository` (`article_repository.dfy`):
  - `idToMongo`;
  - `save`: the split into inserts and updates, one batched insert under fresh ids, registration in the identity map, one `update` per modified persisted document;
  - `delete`: one `remove` by converted ids, then the documents leave the identity map and become new again;
  - `fixMissingReferences`: three paged sweeps, for `author`, `information` and `categories`.
- `ReferenceSweep` (`reference_sweep.dfy`):
  - the paged sweeps as functions on the rows: as the source writes them, and corrected (see Findings);
  - what a complete repair leaves behind;
  - the proof that the corrected sweeps reach it.
- `MessageQuery` (`message_query.dfy`):
  - the `findBy…` filters as functions on the criteria map;
  - `all`, as a class:
    - it turns the returned rows into result documents through the identity map (reusing cached instances, creating and registering the others);
    - then it eager-loads each requested reference with at most one batched `findById` of the distinct ids.

Parameters stand in for I/O and randomness:

- Fresh object ids (`new \MongoId()` in `save`) are the `newIds` sequence.
- The id that `new \MongoId(null)` would generate is `generated`.
- The rows a query returns (`execute()`) are the `rows` parameter.
- The ids that exist in referenced collections are sets of ids.
- `findById` on another repository is recorded as a `Lookup` value.

## Model

| member | source | states |
|---|---|---|
| `Ids.IdString` | tests/Model/Base/ArticleRepository.php:87 | the identity-map key of an id is 24 characters long |
| `Ids.ParseId` | tests/Model/Base/ArticleRepository.php:29 | `new MongoId($string)` accepts only 24-character strings |
| `Ids.FromHexToHex` | tests/Model/Base/ArticleRepository.php:29 | reading the hexadecimal form of any bytes gives those bytes back |
| `Ids.ParseIdString` | tests/Model/Base/ArticleRepository.php:26-33 | parsing an id's string form gives the id back |
| `Ids.IdStringInjective` | tests/Model/Base/ArticleRepository.php:87 | two ids with the same identity-map key are the same id |
| `Seqs.Dedup` | tests/Model/Base/ArticleRepository.php:148 | `array_unique` keeps each element once, no others, is empty only for an empty input, and is no longer than the input |
| `Seqs.Without` | tests/Model/Base/ArticleRepository.php:154 | `array_diff` keeps exactly the elements of the first list that are absent from the second |
| `Storage.ReplaceFields` | tests/Model/Base/ArticleRepository.php:101 | an update by id replaces the fields of exactly the rows with that id and keeps ids and order |
| `Storage.RemoveIds` | tests/Model/Base/ArticleRepository.php:129 | a remove by `$in` ids leaves exactly the rows whose id is not listed |
| `Storage.RemoveWhereInMembers` | tests/Model/Base/ArticleRepository.php:155 | a remove by field `$in` values leaves exactly the rows it does not select |
| `Storage.PullOne` | tests/Model/Base/ArticleRepository.php:190 | a `$pull` leaves in the row's array exactly the elements that are not pulled; a row whose field is not an array is unchanged; the id, the field names and the other fields stay |
| `Storage.PullIn` | tests/Model/Base/ArticleRepository.php:190 | a multiple `$pull` applies to every row and keeps their number |
| `Storage.ReplayAppend` | tests/Model/Base/ArticleRepository.php:79-101 | replaying two runs of driver calls one after the other equals replaying them joined |
| `Storage.Collection.Perform` | tests/Model/Base/ArticleRepository.php:79 | a driver call applies its effect to the rows, joins the log, and keeps rows equal to the replay of the log |
| `Storage.Collection.BatchInsert` | tests/Model/Base/ArticleRepository.php:79 | `batchInsert` appends the rows and logs one call |
| `Storage.Collection.Update` | tests/Model/Base/ArticleRepository.php:101 | `update` replaces the fields of the row with the id and logs one call |
| `Storage.Collection.Remove` | tests/Model/Base/ArticleRepository.php:129 | `remove` by ids drops those rows and logs one call |
| `Storage.Collection.RemoveWhere` | tests/Model/Base/ArticleRepository.php:155 | a multiple remove by field values drops the selected rows and logs one call |
| `Storage.Collection.Pull` | tests/Model/Base/ArticleRepository.php:190 | a multiple `$pull` pulls the values from every row and logs one call |
| `Documents.Document.Loaded` | tests/Model/Base/MessageQuery.php:38-39 | a document built from a row is persisted and unmodified, and has the row's id and fields |
| `Documents.CoherentOneKeyPerInstance` | tests/Model/Base/ArticleRepository.php:87 | in a coherent identity map, one document object sits under one key only |
| `Documents.CoherentKeyDeterminesId` | tests/Model/Base/ArticleRepository.php:134 | in a coherent identity map, the key `(string) $id` finds the document with exactly that id |
| `ArticleRepository.IdToMongo` | tests/Model/Base/ArticleRepository.php:26-33 | an object id is returned unchanged and a valid hexadecimal string becomes its id; the conversion fails, with `InvalidId` of the value, exactly for values other than an object id, null or a valid string |
| `ArticleRepository.IdToMongoIdempotent` | tests/Model/Base/ArticleRepository.php:26-33 | converting an already converted id changes nothing |
| `ArticleRepository.IdToMongoOfKey` | tests/Model/Base/ArticleRepository.php:26-33 | converting an identity-map key gives back the id it was made from |
| `ArticleRepository.MongoIdOfConverts` | tests/Model/Base/ArticleRepository.php:122 | converting a document's id never fails |
| `ArticleRepository.IdKey` | tests/Model/Base/ArticleRepository.php:134 | `(string) $document->getId()` is the 24-character id string, or empty for a document without id |
| `ArticleRepository.Registered` | tests/Model/Base/ArticleRepository.php:81-91 | every key the insert pass adds is a 24-character id string |
| `ArticleRepository.RegisteredAt` | tests/Model/Base/ArticleRepository.php:84-87 | with distinct fresh ids, every inserted document is found under its own new id's string |
| `ArticleRepository.RegisteredKeys` | tests/Model/Base/ArticleRepository.php:81-87 | every key the insert pass adds belongs to one inserted document and its fresh id |
| `ArticleRepository.Persisted` | tests/Model/Base/ArticleRepository.php:55-62 | the update list holds exactly the documents that were not new, in order |
| `ArticleRepository.SentOnce` | tests/Model/Base/ArticleRepository.php:96-106 | the update pass sends each modified persisted document exactly once and no other document |
| `ArticleRepository.UpdateCalls` | tests/Model/Base/ArticleRepository.php:100-101 | each sent document produces one update, selected by its converted id and carrying its fields |
| `ArticleRepository.UpdateStep` | tests/Model/Base/ArticleRepository.php:97-102 | visiting one more document extends the sent list by that document, only when it is modified and not sent yet |
| `ArticleRepository.PartitionNew` | tests/Model/Base/ArticleRepository.php:58-59 | a new document not yet listed joins the inserts |
| `ArticleRepository.PartitionRepeat` | tests/Model/Base/ArticleRepository.php:59 | a new document listed twice is inserted once, because it is keyed by its object hash |
| `ArticleRepository.PartitionPersisted` | tests/Model/Base/ArticleRepository.php:60-61 | a persisted document joins the updates, repeats included |
| `ArticleRepository.Partition` | tests/Model/Base/ArticleRepository.php:55-63 | the inserts are exactly the new documents, each once; the updates are exactly the persisted ones, in order |
| `ArticleRepository.MongoIds` | tests/Model/Base/ArticleRepository.php:120-123 | `delete` collects one converted id per listed document, in order |
| `ArticleRepository.Unset` | tests/Model/Base/ArticleRepository.php:133-134 | unsetting keys removes exactly those keys from the identity map and keeps every other entry |
| `ArticleRepository.Repository.constructor` | tests/Model/Base/ArticleRepository.php:14-21 | the repository works on the given identity map and collection |
| `ArticleRepository.Repository.Collect` | tests/Model/Base/ArticleRepository.php:66-76 | only modified new documents are written, each once, each row under the next fresh id with the document's fields |
| `ArticleRepository.Repository.Persist` | tests/Model/Base/ArticleRepository.php:84-87 | an inserted document takes its new id, is no longer new or modified, and is filed under the id's string; coherence is kept |
| `ArticleRepository.Repository.RegisterNext` | tests/Model/Base/ArticleRepository.php:81-91 | one more inserted document is registered, and the loop invariant is kept |
| `ArticleRepository.Repository.Register` | tests/Model/Base/ArticleRepository.php:81-91 | after the insert loop, every inserted document holds its fresh id and the identity map gains exactly their entries; coherence is kept |
| `ArticleRepository.Repository.Flush` | tests/Model/Base/ArticleRepository.php:78-92 | at most one batch insert, none when nothing is written; the rows are appended; the documents are registered |
| `ArticleRepository.Repository.InsertPass` | tests/Model/Base/ArticleRepository.php:66-93 | the insert half of `save`: which documents are written, the rows sent, the new stored rows, the log, and the identity map; unmodified new documents are untouched |
| `ArticleRepository.Repository.SendUpdate` | tests/Model/Base/ArticleRepository.php:97-101 | a modified document sends one update with its converted id and fields |
| `ArticleRepository.Repository.ClearModified` | tests/Model/Base/ArticleRepository.php:102 | a sent document stops being modified and nothing else changes |
| `ArticleRepository.Repository.VisitUpdate` | tests/Model/Base/ArticleRepository.php:96-106 | one visit of the update loop keeps its invariant: the sends so far equal the specification of the prefix |
| `ArticleRepository.Repository.UpdatePass` | tests/Model/Base/ArticleRepository.php:96-106 | the update half of `save`: each modified persisted document is sent once, in order; the rows are the replay of those calls; every listed document ends unmodified |
| `ArticleRepository.Repository.SplitAndInsert` | tests/Model/Base/ArticleRepository.php:46-93 | splitting then inserting: the updates are the persisted documents, and exactly the modified new ones are inserted |
| `ArticleRepository.Repository.UpdatePersisted` | tests/Model/Base/ArticleRepository.php:95-106 | the update loop over the persisted documents leaves the new ones as the insert pass left them |
| `ArticleRepository.Repository.Save` | tests/Model/Base/ArticleRepository.php:42-107 | `save` of one document or a list: the inserted rows, one batch insert followed by the updates in the log, the new rows, the new state of every document, and the new identity map; coherence is kept |
| `ArticleRepository.Repository.UnsetKey` | tests/Model/Base/ArticleRepository.php:134 | unsetting a document's key removes it; in a coherent map the document then sits under no key |
| `ArticleRepository.Repository.MarkNew` | tests/Model/Base/ArticleRepository.php:135-136 | a deleted document becomes new and loses its id; coherence is kept |
| `ArticleRepository.Repository.UnsetNext` | tests/Model/Base/ArticleRepository.php:133-137 | one visit of the unset loop unsets the document's key as it was, which is empty for a repeat |
| `ArticleRepository.Repository.RemoveAll` | tests/Model/Base/ArticleRepository.php:120-129 | one `remove` of the converted ids, which drops exactly those rows |
| `ArticleRepository.Repository.UnsetAll` | tests/Model/Base/ArticleRepository.php:132-137 | the unset loop removes the documents' keys, and every listed document is new and has no id |
| `ArticleRepository.Repository.Delete` | tests/Model/Base/ArticleRepository.php:114-138 | `delete` of one document or a list: one remove of the converted ids and its effect on the rows, the identity map without their keys, and every document new with no id; coherence is kept |
| `ArticleRepository.Repository.SingleSweepRound` | tests/Model/Base/ArticleRepository.php:147-159 | one round of the corrected single-reference loop makes the calls of the sweep specification and strictly shrinks the rows left to read |
| `ArticleRepository.Repository.RepairSingle` | tests/Model/Base/ArticleRepository.php:145-160 | the corrected single-reference loop leaves the rows and log of the sweep specification |
| `ArticleRepository.Repository.ManySweepRound` | tests/Model/Base/ArticleRepository.php:180-194 | one round of the corrected multi-reference loop makes the calls of the sweep specification and strictly shrinks the rows left to read |
| `ArticleRepository.Repository.RepairMany` | tests/Model/Base/ArticleRepository.php:178-195 | the corrected multi-reference loop leaves the rows and log of the sweep specification |
| `ArticleRepository.Repository.FixMissingReferences` | tests/Model/Base/ArticleRepository.php:143-196 | after the three sweeps no row points at a missing author, article information or category |
| `ReferenceSweep.Owners` | tests/Model/Base/ArticleRepository.php:147 | `$exists` selects rows that carry the field, from the collection |
| `ReferenceSweep.Page` | tests/Model/Base/ArticleRepository.php:147 | `limit`/`skip` gives owner rows from `skip` on, at most `limit` of them, and exactly that many while enough rows remain |
| `ReferenceSweep.FieldValues` | tests/Model/Base/ArticleRepository.php:148 | one reference value per row of the page, in order |
| `ReferenceSweep.FlattenContains` | tests/Model/Base/ArticleRepository.php:181-183 | every element of a page row's array is in the merged list |
| `ReferenceSweep.FlattenFrom` | tests/Model/Base/ArticleRepository.php:181-183 | every element of the merged list comes from the array of some page row |
| `ReferenceSweep.MergeValues` | tests/Model/Base/ArticleRepository.php:181-183 | `array_reduce` with `array_merge`: once the carry is null it stays null, and a non-null result extends the carry it started from |
| `ReferenceSweep.MergeValuesFlatten` | tests/Model/Base/ArticleRepository.php:181-183 | merging a page gives the carry followed by the page's array elements in row order when every row holds an array, and null otherwise |
| `ReferenceSweep.MergedIds` | tests/Model/Base/ArticleRepository.php:181-183 | the ids a page yields after `array_unique` are distinct |
| `ReferenceSweep.MergedIdsMembers` | tests/Model/Base/ArticleRepository.php:181-183 | an id is in a page's merged list exactly when every row of the page holds an array and one of those arrays holds the id; so a page holding a value that is not an array yields no ids, since `array_unique(null)` is null and `count(null)` is 0 |
| `ReferenceSweep.Found` | tests/Model/Base/ArticleRepository.php:151-152 | the target lookup returns exactly the listed ids that exist |
| `ReferenceSweep.MissingIsSetDifference` | tests/Model/Base/ArticleRepository.php:154 | an id is on the missing list exactly when it was referenced and does not exist |
| `ReferenceSweep.MissingNeverLive` | tests/Model/Base/ArticleRepository.php:154-155 | a row selected by the missing list is dangling |
| `ReferenceSweep.SweepOneFrom` | tests/Model/Base/ArticleRepository.php:145-160 | the loop as written removes only rows, keeps every live row, never removes by an empty list, and removes only by ids that name no row |
| `ReferenceSweep.SweepManyFrom` | tests/Model/Base/ArticleRepository.php:178-195 | the loop as written, which stops at a page that yields no ids (including a page holding a non-array value), removes no row or field, never pulls an empty list, pulls only ids that name no row, and so leaves what a complete repair would leave unchanged |
| `ReferenceSweep.SweepManyFromKeepsExisting` | tests/Model/Base/ArticleRepository.php:189-190 | the loop as written never pulls an array element that names an existing row |
| `ReferenceSweep.KeepLiveMembers` | tests/Model/Base/ArticleRepository.php:155 | a complete single-reference repair keeps exactly the rows that are not dangling |
| `ReferenceSweep.SweepOneFixedFrom` | tests/Model/Base/ArticleRepository.php:145-160 | once the owners before `skip` are live, the corrected loop leaves exactly the complete repair |
| `ReferenceSweep.SweepOneRound` | tests/Model/Base/ArticleRepository.php:147-159 | one page of the corrected loop: stop on no ids, move on when nothing is missing, remove the owners of the missing ids and read the same page again |
| `ReferenceSweep.SweepOneFixedRepairs` | tests/Model/Base/ArticleRepository.php:145-160 | the corrected single-reference sweep keeps a row exactly when it is not dangling |
| `ReferenceSweep.PruneMeaning` | tests/Model/Base/ArticleRepository.php:190 | a complete multi-reference repair keeps ids and fields, and each array keeps exactly its elements that exist, in order |
| `ReferenceSweep.PrunePullIn` | tests/Model/Base/ArticleRepository.php:190 | pulling ids that name no row does not change what the complete repair leaves |
| `ReferenceSweep.SweepManyFixedFrom` | tests/Model/Base/ArticleRepository.php:178-195 | once the owners before `skip` are clean, the corrected loop leaves exactly the complete repair |
| `ReferenceSweep.SweepManyRound` | tests/Model/Base/ArticleRepository.php:180-194 | one page of the corrected multi-reference loop: stop on an empty page, otherwise pull the missing ids and move on |
| `ReferenceSweep.SweepManyFixedRepairs` | tests/Model/Base/ArticleRepository.php:178-195 | the corrected multi-reference sweep leaves every array with exactly its existing elements |
| `ReferenceSweep.RepairAllComplete` | tests/Model/Base/ArticleRepository.php:143-196 | the three corrected sweeps leave exactly the rows whose single references are live, with clean category lists |
| `ReferenceSweep.SweepOneSkipsShiftedRow` | tests/Model/Base/ArticleRepository.php:155-159 | the loop as written leaves a dangling row that shifted into an already read page (see Findings) |
| `ReferenceSweep.SweepManyStopsOnFirstPage` | tests/Model/Base/ArticleRepository.php:181-195 | the loop as written ends at a first page whose arrays are empty |
| `ReferenceSweep.SweepManyStopsAtEmptyArrays` | tests/Model/Base/ArticleRepository.php:181-195 | the loop as written leaves a dangling category behind an empty list (see Findings) |
| `ReferenceSweep.SweepManyStopsAtNonArray` | tests/Model/Base/ArticleRepository.php:181-195 | the loop as written pulls nothing from a page that holds a null category field, so a dangling category on that page survives; the corrected loop pulls it (see Findings) |
| `MessageQuery.Merge` | tests/Model/Base/MessageQuery.php:108 | merged criteria hold both key sets, and the added condition wins on a shared field |
| `MessageQuery.FindByString` | tests/Model/Base/MessageQuery.php:105-108 | the filter succeeds exactly for a string value and then sets the field's condition to the value; otherwise it fails with the bad-value error |
| `MessageQuery.FindByAuthor` | tests/Model/Base/MessageQuery.php:103-109 | `findByAuthor` accepts only strings, failing with the bad-value error otherwise; it sets the `author` condition and keeps the other criteria |
| `MessageQuery.FindByText` | tests/Model/Base/MessageQuery.php:118-124 | `findByText` accepts only strings, failing with the bad-value error otherwise; it sets the `text` condition and keeps the other criteria |
| `MessageQuery.FindByReplyTo` | tests/Model/Base/MessageQuery.php:133-137 | `findByReplyTo` sets `replyTo` equal to the converted id and keeps the other criteria |
| `MessageQuery.IdValues` | tests/Model/Base/MessageQuery.php:141 | a value is in the `$in` list exactly when it is an object id of one of the given ids |
| `MessageQuery.FindByReplyToIds` | tests/Model/Base/MessageQuery.php:139-143 | `findByReplyToIds` sets `replyTo` `$in` the converted ids and keeps the other criteria |
| `MessageQuery.FindByStringNarrows` | tests/Model/Base/MessageQuery.php:103-109 | a row matches the filtered query exactly when it matches the other criteria and holds the string |
| `MessageQuery.FindByStringLastWins` | tests/Model/Base/MessageQuery.php:108 | filtering a field twice is filtering it by the second value |
| `MessageQuery.FindByAuthorTextCommute` | tests/Model/Base/MessageQuery.php:103-124 | the author and text filters commute |
| `MessageQuery.FindByReplyToNarrows` | tests/Model/Base/MessageQuery.php:133-137 | a row matches exactly when it matches the other criteria and refers to the id |
| `MessageQuery.FindByReplyToIdsNarrows` | tests/Model/Base/MessageQuery.php:139-143 | a row matches exactly when it matches the other criteria and refers to one of the ids |
| `MessageQuery.OneValues` | tests/Model/Base/MessageQuery.php:55-60 | a single reference collects exactly the truthy field values of the documents |
| `MessageQuery.ManyValues` | tests/Model/Base/MessageQuery.php:73-80 | a list reference collects exactly the elements of the documents' non-empty arrays |
| `MessageQuery.Batch` | tests/Model/Base/MessageQuery.php:61-63 | one `findById` of the distinct collected ids, and none when nothing was collected |
| `MessageQuery.LoadOne` | tests/Model/Base/MessageQuery.php:49-89 | a declared reference makes one lookup on its class, exactly when some document holds an id, with exactly the ids held; an undeclared name fails with the invalid-reference error naming it and the class |
| `MessageQuery.LoadAll` | tests/Model/Base/MessageQuery.php:46-91 | at most one lookup per requested name, each with distinct ids and never empty |
| `MessageQuery.LoadAllKeepsError` | tests/Model/Base/MessageQuery.php:89 | once a name has failed, the later names change nothing |
| `MessageQuery.LoadAllFailsAtFirstUndeclared` | tests/Model/Base/MessageQuery.php:46-91 | loading fails exactly when a name is undeclared, with the first such name, after the lookups of the names before it |
| `MessageQuery.RowKeys` | tests/Model/Base/MessageQuery.php:25 | each row's key is its id's string, and two rows get the same key exactly when they have the same id |
| `MessageQuery.CachedRowRegistered` | tests/Model/Base/MessageQuery.php:26-27 | a row whose key is in the identity map yields the cached instance and keeps the registration invariant |
| `MessageQuery.NewRowRegistered` | tests/Model/Base/MessageQuery.php:38-41 | a row with an unseen key yields a document built from it, filed under the key, and keeps the registration invariant |
| `MessageQuery.RegisteredKeepsCoherent` | tests/Model/Base/MessageQuery.php:41 | entries registered from rows keep the identity map coherent |
| `MessageQuery.Query.constructor` | tests/Model/Base/MessageQuery.php:16-19 | the query works on the repository's identity map, the class metadata and the requested references |
| `MessageQuery.Query.Register` | tests/Model/Base/MessageQuery.php:38-41 | a new document built from the row is filed under the row's key, and no other entry changes |
| `MessageQuery.Query.Materialize` | tests/Model/Base/MessageQuery.php:22-44 | the result keys are the row keys, each once, in order of first occurrence. Each result is the identity-map entry under its key. Old entries are kept. Each new entry is a fresh document built from the first row with its key |
| `MessageQuery.Query.CollectOne` | tests/Model/Base/MessageQuery.php:55-60 | the id loop of a single reference computes the truthy values in document order |
| `MessageQuery.Query.CollectMany` | tests/Model/Base/MessageQuery.php:73-80 | the nested id loops of a list reference compute the array elements in document order |
| `MessageQuery.Query.LoadReferences` | tests/Model/Base/MessageQuery.php:46-91 | the reference loop makes exactly the lookups, and raises exactly the error, that the loading specification gives |
| `MessageQuery.Query.All` | tests/Model/Base/MessageQuery.php:14-94 | `all`: the materialized documents, the lookups and the error of eager-loading over them in key order; a coherent identity map stays coherent |

## Left out

- PHP loose comparison. `array_unique` and `array_diff` (ArticleRepository.php lines 148, 154, 164, 170, 181 and 189) compare string forms; `Seqs.Dedup` and `Seqs.Without` compare values structurally. For object ids this is the same, because the string form is injective. A string holding an id's hexadecimal form equals that object id in PHP but not in the model.
- Driver failures and the options arrays passed to `batchInsert`, `update` and `remove`: every call succeeds as stated.
- `Seqs.Dedup` and `Seqs.Without`: `array_unique` and `array_diff` keep the keys of the elements they keep. So `$ids` and `$idsDiff` can reach `$in` as arrays whose keys are not 0, 1, 2, …, for example `[1 => Y]` when the first id exists. The model treats both as lists. What the driver and the server do with such an `$in` operand is not modelled: the driver may send it as a document rather than an array.
- `queryForSave`: an insert writes the document's fields, and an update replaces the stored fields with them. The partial `$set`/`$unset` payload is not modelled.
- Code outside these two classes is not part of this model, because its source is not available:
  - the hooks and events;
  - `saveReferences`, `updateReferenceFields` and `resetGroups`;
  - `processOnDelete`.
- GridFS rows (`isFile`, MessageQuery.php lines 30-34): the message repository is not a file repository.
- The query hash and fields stored in loaded documents (`addQueryHash`, `_query_hash`, `_query_fields`).
- `mergeCriteria` is taken to be a right-biased union of the criteria maps, because its body is not available.
- `valueToMongoId` and `idsToMongo` are not part of this model. Their results are the `id` and `ids` parameters.
- `execute()` is not modelled. Its rows are a parameter.
- `findById` on another repository is not part of this model. It is recorded as a `Lookup` with its class and ids.
- Query matching (`Matches`) uses plain equality and `$in` membership: MongoDB's matching of a value against an array field is left out.
- The many-reference loop iterates over a truthy field value. A truthy value that is not an array contributes nothing in the model; in PHP, iterating over an object yields its public properties.
- `fixMissingReferences` takes `documentsPerBatch` as a positive parameter, and the default 1000 is not fixed in the model. A batch size of zero is not modelled because the source's loops do not end with it. MongoDB reads `limit(0)` as no limit, so each page holds every owner row. `$skip += 0` never moves past them. So each `do … while` loop (lines 145-160, 162-176 and 178-195) repeats for as long as any owner row yields an id, including a row whose reference exists. A negative batch size is not modelled either.
- `Storage.RemoveWhereInMembers`, `ReferenceSweep.SweepOneFrom`: `Storage.FieldIn` selects only rows that have the field. MongoDB's `{field: {$in: [null, …]}}` also matches rows without the field. An owner row whose `author` is null puts null on `$idsDiff`, because null is never found. The `remove` at ArticleRepository.php line 155 then also deletes every article with no `author` field, and likewise for `information` at line 171. The model keeps those rows. `$in` matching of a value against an array field is not modelled either.
- `Storage.PullOne`: a row whose field is not an array is left as it is. MongoDB instead rejects a `$pull` on an existing field that is not an array, null included, and the multiple update at ArticleRepository.php line 190 then fails. The model does not capture that failure.
- `ReferenceSweep.MergedIds`: a page holding a non-array `categories` value yields no ids, as `array_merge` returns null under PHP 5 and 7. Under PHP 8 `array_merge` throws a `TypeError` instead, and that is not modelled. The warnings PHP prints are not modelled either.
- The floating-point and object values of PHP are not among the modelled field values.
- `ArticleRepository.IdToMongo`: `new MongoId(null)` generates a fresh id. The model takes that id as the `generated` parameter, so every null converts to the same id within one call. `Save` and `Delete` require that `generated` names no stored row, as a fresh id does.
- `ArticleRepository.Repository.Save`: states which documents are inserted and pairs each with its row, but not that the inserts follow the order of first appearance in the argument.
- `ArticleRepository.Repository.Delete`: states the new id and `isNew` flag of every listed document. That their fields and modified flags are kept follows from the `modifies` frame and is not stated as a postcondition.
- `ArticleRepository.Repository.FixMissingReferences`: models the corrected sweeps described under Findings, not the loops as written. The loops as written are `ReferenceSweep.SweepOneFrom` and `ReferenceSweep.SweepManyFrom`.
- `MessageQuery.Query.All`: an undeclared reference name is reported only after the query has run: the identity map has been filled and the lookups of the earlier names have been made. Then `all` throws. The model returns that error together with those lookups and the filled identity map; it does not model the exception unwinding.

## Findings

| source | as written | input that shows it | evidently intended | confidence | as-written member | corrected member |
|---|---|---|---|---|---|---|
| tests/Model/Base/ArticleRepository.php:155-159 | after removing the owners of missing authors, the loop still advances `skip` by `documentsPerBatch`; the remaining rows have shifted down by the number removed | batch size 1; articles A (author X) and B (author Y), neither author stored. The first page removes A, B moves to offset 0, the page at offset 1 is empty, and B is left pointing at a missing author | every article whose author is missing is removed, so the same offset is read again after a removal | medium, not executed | `ReferenceSweep.SweepOneSkipsShiftedRow` | `ReferenceSweep.SweepOneFixedRepairs` |
| tests/Model/Base/ArticleRepository.php:181-195 | the categories loop ends at the first page whose merged id list is empty, which happens for a page of empty category lists | batch size 1; article A with no categories ahead of article B whose only category X is not stored. The first page yields no ids, the loop ends, and B keeps X | every category list loses its missing ids, so the loop ends only at a page with no rows | medium, not executed | `ReferenceSweep.SweepManyStopsAtEmptyArrays` | `ReferenceSweep.SweepManyFixedRepairs` |
| tests/Model/Base/ArticleRepository.php:181-183 | `array_reduce(…, 'array_merge', array())` meets a `categories` value that is not an array, so `array_merge` returns null, and the page yields no ids | batch size 2; article A whose `categories` is null and article B whose only category X is not stored. The page's id list is null, nothing is pulled, the loop ends, and B keeps X | a value that is not an array contributes no ids, and the missing ids of the other rows are still pulled | medium, not executed | `ReferenceSweep.SweepManyStopsAtNonArray` | `ReferenceSweep.SweepManyFixedRepairs` |

=== FILE: article_repository.dfy ===
/**
 * The repository of article documents: `save` and `delete` as one unit of
 * work against the `articles` collection and the identity map, the id
 * conversion they use, and `fixMissingReferences`, the sweep that repairs
 * references to rows that no longer exist.
 */
module ArticleRepository {
  import opened Wrappers
  import opened Ids
  import opened Seqs
  import opened Documents
  import opened Storage
  import opened ReferenceSweep

  /** The argument of `save` and `delete`: one document, or a list of them. */
  datatype DocumentArg = One(doc: Document) | Many(docs: seq<Document>)
  {
    /** A single document is handled as a one-element list. */
    function List(): seq<Document>
    {
      match this
      case One(d) => [d]
      case Many(ds) => ds
    }
  }

  // ----- ids -----

  /** What `getId()` hands back: the object id, or null before the first insert. */
  function IdValue(id: Option<Id>): Value
  {
    if id.Some? then ObjectId(id.value) else Null
  }

  /**
   * `idToMongo`: an object id is returned as it is; any other value goes
   * through `new MongoId(...)`, which generates the new id `generated` for
   * null, parses a 24-digit hexadecimal string, and refuses everything else.
   */
  function IdToMongo(v: Value, generated: Id): (r: Result<Id, Error>)
    ensures v.ObjectId? ==> r == Success(v.id)
    ensures v.Str? && ParseId(v.s).Some? ==> r == Success(ParseId(v.s).value)
    ensures r.Failure? <==> !(v.ObjectId? || v.Null? || (v.Str? && ParseId(v.s).Some?))
    ensures r.Failure? ==> r.error == InvalidId(v)
  {
    match v
    case ObjectId(id) => Success(id)
    case Null => Success(generated)
    case Str(s) =>
      (match ParseId(s)
       case Some(id) => Success(id)
       case None => Failure(InvalidId(v)))
    case _ => Failure(InvalidId(v))
  }

  /** Converting a converted id again changes nothing: `idToMongo` is idempotent. */
  lemma IdToMongoIdempotent(v: Value, generated: Id, generated2: Id)
    ensures IdToMongo(v, generated).Success? ==>
      IdToMongo(ObjectId(IdToMongo(v, generated).value), generated2) == IdToMongo(v, generated)
  {
  }

  /** The identity-map key of an id converts back to that id. */
  lemma IdToMongoOfKey(id: Id, generated: Id)
    ensures IdToMongo(Str(IdString(id)), generated) == Success(id)
  {
    ParseIdString(id);
  }

  /** The id sent to the driver for a document's id: its own id, or the generated one when it has none. */
  function MongoIdOf(id: Option<Id>, generated: Id): (r: Id)
    ensures id.Some? ==> r == id.value
    ensures id.None? ==> r == generated
  {
    if id.Some? then id.value else generated
  }

  /** Converting a document's id through `idToMongo` never fails, and gives the id sent to the driver. */
  lemma MongoIdOfConverts(id: Option<Id>, generated: Id)
    ensures IdToMongo(IdValue(id), generated) == Success(MongoIdOf(id, generated))
  {
  }

  /** The identity-map key of a document id, `(string) $document->getId()`: empty for null. */
  function IdKey(id: Option<Id>): (k: string)
    ensures id.Some? ==> k == IdString(id.value) && |k| == 24
    ensures id.None? ==> k == ""
  {
    if id.Some? then IdString(id.value) else ""
  }


  // ----- the identity-map entries of an insert -----

  /** The identity-map entries the insert pass adds: each inserted document under its new id's string. */
  function Registered(ts: seq<Document>, ids: seq<Id>): (m: map<string, Document>)
    requires |ids| >= |ts|
    ensures forall k :: k in m ==> |k| == 24
    decreases |ts|
  {
    if ts == [] then map[] else Registered(ts[..|ts| - 1], ids)[IdString(ids[|ts| - 1]) := ts[|ts| - 1]]
  }

  /** With distinct fresh ids every inserted document is found under its own id's string. */
  lemma {:induction false} RegisteredAt(ts: seq<Document>, ids: seq<Id>, i: nat)
    requires |ids| >= |ts| && Distinct(ids) && i < |ts|
    ensures IdString(ids[i]) in Registered(ts, ids) && Registered(ts, ids)[IdString(ids[i])] == ts[i]
    decreases |ts|
  {
    if i < |ts| - 1 {
      RegisteredAt(ts[..|ts| - 1], ids, i);
      if IdString(ids[|ts| - 1]) == IdString(ids[i]) {
        IdStringInjective(ids[|ts| - 1], ids[i]);
      }
    }
  }

  /** Every key the insert pass adds is the string of one of the fresh ids it used. */
  lemma {:induction false} RegisteredKeys(ts: seq<Document>, ids: seq<Id>, k: string)
    requires |ids| >= |ts| && k in Registered(ts, ids)
    ensures exists i :: 0 <= i < |ts| && k == IdString(ids[i]) && Registered(ts, ids)[k] == ts[i]
    decreases |ts|
  {
    if k != IdString(ids[|ts| - 1]) {
      RegisteredKeys(ts[..|ts| - 1], ids, k);
    }
  }

  lemma UnionUpdate<K, V>(a: map<K, V>, b: map<K, V>, k: K, v: V)
    ensures a + b[k := v] == (a + b)[k := v]
  {
  }

  /** The state of a document object at one moment. */
  datatype DocState = DocState(id: Option<Id>, isNew: bool, modified: bool, fields: map<string, Value>)


  /**
   * The documents of `ds` that were already persisted in the states
   * `before`, in order and with repeats: the `$updates` list of `save`.
   */
  function Persisted(ds: seq<Document>, before: map<Document, DocState>): (r: seq<Document>)
    requires forall d :: d in ds ==> d in before
    ensures |r| <= |ds|
    ensures forall i :: 0 <= i < |r| ==> r[i] in ds && !before[r[i]].isNew
    ensures forall i :: 0 <= i < |ds| && !before[ds[i]].isNew ==> ds[i] in r
    decreases |ds|
  {
    if ds == [] then []
    else
      var p := Persisted(ds[..|ds| - 1], before);
      var x := ds[|ds| - 1];
      if before[x].isNew then p else p + [x]
  }

  /**
   * The documents the update pass sends, given their states when it starts:
   * the modified ones, each object once, in order of first appearance.
   */
  function SentOnce(ds: seq<Document>, before: map<Document, DocState>): (r: seq<Document>)
    requires forall d :: d in ds ==> d in before
    ensures Distinct(r)
    ensures forall i :: 0 <= i < |r| ==> r[i] in ds && before[r[i]].modified
    ensures forall i :: 0 <= i < |ds| && before[ds[i]].modified ==> ds[i] in r
    decreases |ds|
  {
    if ds == [] then []
    else
      var p := ds[..|ds| - 1];
      var x := ds[|ds| - 1];
      var r := SentOnce(p, before);
      if x in r || !before[x].modified then r else r + [x]
  }

  /** The `update` calls for the sent documents: each selected by its converted id and carrying its fields. */
  function UpdateCalls(ds: seq<Document>, before: map<Document, DocState>, generated: Id): (r: seq<Call>)
    requires forall d :: d in ds ==> d in before
    ensures |r| == |ds|
    ensures forall i :: 0 <= i < |ds| ==> r[i] == Update(MongoIdOf(before[ds[i]].id, generated), before[ds[i]].fields)
    decreases |ds|
  {
    if ds == [] then []
    else
      var x := ds[|ds| - 1];
      UpdateCalls(ds[..|ds| - 1], before, generated) + [Update(MongoIdOf(before[x].id, generated), before[x].fields)]
  }

  /** One visit of the update pass extends the sent documents and their calls by at most the visited one. */
  lemma UpdateStep(ds: seq<Document>, i: nat, before: map<Document, DocState>, generated: Id)
    requires i < |ds| && forall d :: d in ds ==> d in before
    ensures var x, r := ds[i], SentOnce(ds[..i], before);
      && SentOnce(ds[..i + 1], before) == (if x in r || !before[x].modified then r else r + [x])
      && UpdateCalls(r + [x], before, generated)
         == UpdateCalls(r, before, generated) + [Update(MongoIdOf(before[x].id, generated), before[x].fields)]
  {
    var r := SentOnce(ds[..i], before);
    assert ds[..i + 1][..i] == ds[..i];
    assert (r + [ds[i]])[..|r|] == r;
  }

  /**
   * What the insert pass of `save` writes: every document of `docs` that
   * was new and modified in the states `before`, each once, and for each
   * one a row holding the fresh id at its position and its fields.
   */
  ghost predicate InsertedRows(docs: seq<Document>, before: map<Document, DocState>, newIds: seq<Id>,
                               inserted: seq<Document>, rows: seq<StoredDoc>)
  {
    && (forall d :: d in docs ==> d in before)
    && Distinct(inserted) && |inserted| <= |docs| && |inserted| <= |newIds| && |rows| == |inserted|
    && (forall i :: 0 <= i < |inserted| ==> inserted[i] in docs)
    && (forall d :: d in docs ==> (d in inserted <==> before[d].isNew && before[d].modified))
    && (forall i :: 0 <= i < |rows| ==> rows[i] == StoredDoc(newIds[i], before[inserted[i]].fields))
  }

  /** The states of a list of documents at one moment. */
  ghost method TakeSnapshot(ds: seq<Document>) returns (m: map<Document, DocState>)
    ensures forall d :: d in ds ==> d in m && m[d] == DocState(d.id, d.isNew, d.modified, d.fields)
  {
    m := map d | d in ds :: DocState(d.id, d.isNew, d.modified, d.fields);
  }

  /**
   * `inserts` and `updates` split `ds` as `save` does, by the states
   * `before`: the new documents each once, the persisted ones in order.
   */
  ghost predicate Partitioned(ds: seq<Document>, before: map<Document, DocState>, inserts: seq<Document>, updates: seq<Document>)
  {
    && (forall d :: d in ds ==> d in before)
    && Distinct(inserts) && |inserts| + |updates| <= |ds|
    && (forall d :: d in inserts ==> d in ds && before[d].isNew)
    && (forall d :: d in ds && before[d].isNew ==> d in inserts)
    && updates == Persisted(ds, before)
    && (forall d :: d in updates ==> d in ds && !before[d].isNew)
    && (forall d :: d in ds && !before[d].isNew ==> d in updates)
  }

  /** A new document not yet among the inserts joins them. */
  lemma PartitionNew(ds: seq<Document>, d: Document, before: map<Document, DocState>, inserts: seq<Document>, updates: seq<Document>)
    requires Partitioned(ds, before, inserts, updates) && d in before && before[d].isNew && d !in inserts
    ensures Partitioned(ds + [d], before, inserts + [d], updates)
  {
    assert (ds + [d])[..|ds|] == ds;
  }

  /** A new document already among the inserts changes nothing. */
  lemma PartitionRepeat(ds: seq<Document>, d: Document, before: map<Document, DocState>, inserts: seq<Document>, updates: seq<Document>)
    requires Partitioned(ds, before, inserts, updates) && d in before && before[d].isNew && d in inserts
    ensures Partitioned(ds + [d], before, inserts, updates)
  {
    assert (ds + [d])[..|ds|] == ds;
  }

  /** A persisted document joins the updates, repeats included. */
  lemma PartitionPersisted(ds: seq<Document>, d: Document, before: map<Document, DocState>, inserts: seq<Document>, updates: seq<Document>)
    requires Partitioned(ds, before, inserts, updates) && d in before && !before[d].isNew
    ensures Partitioned(ds + [d], before, inserts, updates + [d])
  {
    assert (ds + [d])[..|ds|] == ds;
  }

  /**
   * Splitting a document list into the inserts and the updates of `save`:
   * the new documents, each once, and the persisted ones in order, as they
   * were in the states `before`.
   */
  method Partition(docs: seq<Document>, ghost before: map<Document, DocState>)
    returns (inserts: seq<Document>, updates: seq<Document>)
    requires forall d :: d in docs ==> d in before && before[d] == DocState(d.id, d.isNew, d.modified, d.fields)
    ensures Partitioned(docs, before, inserts, updates)
  {
    inserts, updates := [], [];
    for i := 0 to |docs|
      invariant Partitioned(docs[..i], before, inserts, updates)
    {
      var d := docs[i];
      assert docs[..i + 1] == docs[..i] + [d];
      if d.isNew {
        if d !in inserts {
          PartitionNew(docs[..i], d, before, inserts, updates);
          inserts := inserts + [d];
        } else {
          PartitionRepeat(docs[..i], d, before, inserts, updates);
        }
      } else {
        PartitionPersisted(docs[..i], d, before, inserts, updates);
        updates := updates + [d];
      }
    }
    assert docs[..|docs|] == docs;
  }

  /**
   * The ids `delete` sends to `remove`: each document's id through
   * `idToMongo`, which never fails on a document id.
   */
  method MongoIds(docs: seq<Document>, generated: Id) returns (ids: seq<Id>)
    ensures |ids| == |docs|
    ensures forall i :: 0 <= i < |docs| ==> ids[i] == MongoIdOf(docs[i].id, generated)
  {
    ids := [];
    for i := 0 to |docs|
      invariant |ids| == i
      invariant forall k :: 0 <= k < i ==> ids[k] == MongoIdOf(docs[k].id, generated)
    {
      var r := IdToMongo(IdValue(docs[i].id), generated);
      MongoIdOfConverts(docs[i].id, generated);
      ids := ids + [r.value];
    }
  }

  /** A map without the keys listed in `keys`. */
  function Unset(m: map<string, Document>, keys: seq<string>): (r: map<string, Document>)
    ensures forall k :: k in r <==> k in m && k !in keys
    ensures forall k :: k in r ==> r[k] == m[k]
  {
    if keys == [] then m else Unset(m, keys[..|keys| - 1]) - {keys[|keys| - 1]}
  }

  /**
   * The identity-map keys `delete` unsets, one per listed document: the
   * string form of its id as it was, or the empty string for a document
   * listed again, whose id was already cleared.
   */
  ghost predicate UnsetKeys(docs: seq<Document>, before: map<Document, DocState>, keys: seq<string>)
  {
    && |keys| == |docs|
    && (forall d :: d in docs ==> d in before)
    && (forall i :: 0 <= i < |docs| ==> keys[i] == (if docs[i] in docs[..i] then "" else IdKey(before[docs[i]].id)))
  }

  /** The repository of article documents, sharing the identity map with the article queries. */
  class Repository {
    const identityMap: IdentityMap
    const collection: Collection

    constructor (identityMap: IdentityMap, collection: Collection)
      ensures this.identityMap == identityMap && this.collection == collection
    {
      this.identityMap := identityMap;
      this.collection := collection;
    }

    /**
     * The documents of `inserts` the insert pass writes (the modified ones),
     * and the rows it sends for them, each under the next fresh id.
     */
    static method Collect(inserts: seq<Document>, newIds: seq<Id>) returns (inserted: seq<Document>, rows: seq<StoredDoc>)
      requires Distinct(inserts) && |newIds| >= |inserts|
      ensures Distinct(inserted) && |inserted| <= |inserts|
      ensures forall d :: d in inserted <==> d in inserts && d.modified
      ensures |rows| == |inserted|
      ensures forall i :: 0 <= i < |rows| ==> rows[i] == StoredDoc(newIds[i], inserted[i].fields)
    {
      inserted := [];
      rows := [];
      for i := 0 to |inserts|
        invariant Distinct(inserted) && |inserted| <= i
        invariant forall d :: d in inserted <==> d in inserts[..i] && d.modified
        invariant |rows| == |inserted|
        invariant forall k :: 0 <= k < |rows| ==> rows[k] == StoredDoc(newIds[k], inserted[k].fields)
      {
        var d := inserts[i];
        assert inserts[..i + 1] == inserts[..i] + [d];
        if d.modified {
          rows := rows + [StoredDoc(newIds[|inserted|], d.fields)];
          inserted := inserted + [d];
        }
      }
      assert inserts[..|inserts|] == inserts;
    }

    /** One inserted document takes its new id, stops being new and modified, and enters the identity map. */
    method Persist(d: Document, id: Id)
      modifies d, identityMap
      ensures d.id == Some(id) && !d.isNew && !d.modified && d.fields == old(d.fields)
      ensures identityMap.entries == old(identityMap.entries)[IdString(id) := d]
      ensures old(identityMap.Coherent()) && old(d.isNew) ==> identityMap.Coherent()
    {
      d.id := Some(id);
      d.isNew := false;
      d.modified := false;
      identityMap.entries := identityMap.entries[IdString(id) := d];
    }

    /**
     * What holds after the first `j` inserted documents have been
     * registered, starting from the entries `entries0`, the document states
     * `before`, and an identity map that was coherent if `coherent0`.
     */
    ghost predicate RegisteredUpTo(inserted: seq<Document>, newIds: seq<Id>, j: nat, before: map<Document, DocState>,
                                   entries0: map<string, Document>, coherent0: bool)
      reads this, identityMap, identityMap.entries.Values, inserted
    {
      && j <= |inserted| <= |newIds|
      && (forall d :: d in inserted ==> d in before && d.fields == before[d].fields)
      && (forall k :: 0 <= k < j ==>
            inserted[k].id == Some(newIds[k]) && !inserted[k].isNew && !inserted[k].modified)
      && (forall k :: j <= k < |inserted| ==> inserted[k].isNew)
      && identityMap.entries == entries0 + Registered(inserted[..j], newIds)
      && (coherent0 ==> identityMap.Coherent())
    }

    /** Registering the next inserted document. */
    method RegisterNext(inserted: seq<Document>, newIds: seq<Id>, j: nat, ghost before: map<Document, DocState>,
                        ghost entries0: map<string, Document>, ghost coherent0: bool)
      requires Distinct(inserted) && j < |inserted|
      requires RegisteredUpTo(inserted, newIds, j, before, entries0, coherent0)
      modifies identityMap, inserted[j]
      ensures RegisteredUpTo(inserted, newIds, j + 1, before, entries0, coherent0)
    {
      ghost var key := IdString(newIds[j]);
      assert entries0 + Registered(inserted[..j + 1], newIds) == identityMap.entries[key := inserted[j]] by {
        assert inserted[..j + 1][..j] == inserted[..j];
        UnionUpdate(entries0, Registered(inserted[..j], newIds), key, inserted[j]);
      }
      assert forall k :: 0 <= k < |inserted| && k != j ==> inserted[k] != inserted[j];
      Persist(inserted[j], newIds[j]);
    }

    /**
     * After the batch insert: each inserted document takes its id, stops
     * being new and modified, and is registered in the identity map under
     * its id's string.
     */
    method Register(inserted: seq<Document>, newIds: seq<Id>)
      requires Distinct(inserted) && |newIds| >= |inserted|
      requires forall d :: d in inserted ==> d.isNew
      modifies identityMap, inserted
      ensures forall i :: 0 <= i < |inserted| ==>
        && inserted[i].id == Some(newIds[i]) && !inserted[i].isNew && !inserted[i].modified
        && inserted[i].fields == old(inserted[i].fields)
      ensures identityMap.entries == old(identityMap.entries) + Registered(inserted, newIds)
      ensures old(identityMap.Coherent()) ==> identityMap.Coherent()
    {
      ghost var before := TakeSnapshot(inserted);
      for j := 0 to |inserted|
        invariant RegisteredUpTo(inserted, newIds, j, before, old(identityMap.entries), old(identityMap.Coherent()))
      {
        RegisterNext(inserted, newIds, j, before, old(identityMap.entries), old(identityMap.Coherent()));
      }
      assert inserted[..|inserted|] == inserted;
    }

    /**
     * The batch insert and what follows it: one `batchInsert` of the rows,
     * made only when there is at least one, after which every inserted
     * document takes its id, stops being new and modified, and is registered
     * in the identity map under its id's string.
     */
    method Flush(inserted: seq<Document>, rows: seq<StoredDoc>, newIds: seq<Id>)
      requires collection.Valid()
      requires Distinct(inserted) && forall d :: d in inserted ==> d.isNew
      requires |rows| == |inserted| && |newIds| >= |inserted|
      modifies collection, identityMap, inserted
      ensures collection.Valid() && collection.base == old(collection.base)
      ensures collection.log == old(collection.log) + (if rows == [] then [] else [BatchInsert(rows)])
      ensures collection.docs == old(collection.docs) + rows
      ensures forall i :: 0 <= i < |inserted| ==>
        && inserted[i].id == Some(newIds[i]) && !inserted[i].isNew && !inserted[i].modified
        && inserted[i].fields == old(inserted[i].fields)
      ensures identityMap.entries == old(identityMap.entries) + Registered(inserted, newIds)
      ensures old(identityMap.Coherent()) ==> identityMap.Coherent()
    {
      if |rows| > 0 {
        collection.BatchInsert(rows);
        Register(inserted, newIds);
      } else {
        assert old(identityMap.entries) + Registered(inserted, newIds) == identityMap.entries;
      }
    }

    /**
     * The insert pass of `save`: the modified documents among `inserts` go
     * to storage in one batch insert, made only when there is one, each row
     * under the next fresh id; each of them then takes its id, stops being
     * new and modified, and is registered in the identity map under its id's
     * string. The unmodified ones are left as they are.
     */
    method InsertPass(inserts: seq<Document>, newIds: seq<Id>) returns (inserted: seq<Document>, rows: seq<StoredDoc>)
      requires collection.Valid()
      requires Distinct(inserts) && forall d :: d in inserts ==> d.isNew
      requires |newIds| >= |inserts|
      modifies collection, identityMap, set d | d in inserts
      ensures Distinct(inserted) && |inserted| <= |inserts|
      ensures forall i :: 0 <= i < |inserted| ==> inserted[i] in inserts
      ensures forall d :: d in inserted <==> d in inserts && old(d.modified)
      ensures |rows| == |inserted|
      ensures forall i :: 0 <= i < |rows| ==> rows[i] == StoredDoc(newIds[i], old(inserted[i].fields))
      ensures collection.Valid() && collection.base == old(collection.base)
      ensures collection.log == old(collection.log) + (if rows == [] then [] else [BatchInsert(rows)])
      ensures collection.docs == old(collection.docs) + rows
      ensures forall i :: 0 <= i < |inserted| ==>
        && inserted[i].id == Some(newIds[i]) && !inserted[i].isNew && !inserted[i].modified
        && inserted[i].fields == old(inserted[i].fields)
      ensures forall d :: d in inserts && d !in inserted ==> unchanged(d)
      ensures identityMap.entries == old(identityMap.entries) + Registered(inserted, newIds)
      ensures old(identityMap.Coherent()) ==> identityMap.Coherent()
    {
      inserted, rows := Collect(inserts, newIds);
      Flush(inserted, rows, newIds);
    }

    /**
     * What the update pass has sent after visiting the first `i` documents
     * of `updates`, which were in the states `before` when it started with
     * the log `log0` and the initial rows `base0`: one `update` call per
     * modified document, in order, each document once.
     */
    ghost predicate UpdatesSent(updates: seq<Document>, i: nat, generated: Id, before: map<Document, DocState>,
                                log0: seq<Call>, base0: seq<StoredDoc>, updated: seq<Document>, calls: seq<Call>)
      reads this, collection
    {
      && i <= |updates|
      && (forall d :: d in updates ==> d in before)
      && updated == SentOnce(updates[..i], before)
      && calls == UpdateCalls(updated, before, generated)
      && collection.Valid() && collection.base == base0
      && collection.log == log0 + calls
    }

    /** The documents of `updates` have the ids, new flags and fields they had in `before`. */
    static ghost predicate UpdatesKeepState(updates: seq<Document>, before: map<Document, DocState>)
      reads updates`id, updates`isNew, updates`fields
    {
      forall d :: d in updates ==>
        d in before && d.id == before[d].id && d.isNew == before[d].isNew && d.fields == before[d].fields
    }

    /** Exactly the documents of `updates` already sent have stopped being modified. */
    static ghost predicate UpdatesCleared(updates: seq<Document>, before: map<Document, DocState>, updated: seq<Document>)
      reads updates
    {
      forall d :: d in updates ==> d in before && d.modified == (before[d].modified && d !in updated)
    }

    /** The `update` call for a modified document: its fields go to the row selected by its converted id. */
    method SendUpdate(updates: seq<Document>, i: nat, generated: Id, ghost before: map<Document, DocState>,
                      ghost log0: seq<Call>, ghost base0: seq<StoredDoc>, ghost updated: seq<Document>,
                      ghost calls: seq<Call>)
      returns (ghost c: Call)
      requires i < |updates| && updates[i].modified
      requires UpdatesSent(updates, i, generated, before, log0, base0, updated, calls)
      requires UpdatesCleared(updates, before, updated) && UpdatesKeepState(updates, before)
      modifies collection
      ensures UpdatesSent(updates, i + 1, generated, before, log0, base0, updated + [updates[i]], calls + [c])
    {
      var d := updates[i];
      UpdateStep(updates, i, before, generated);
      c := Update(MongoIdOf(d.id, generated), d.fields);
      collection.Update(MongoIdOf(d.id, generated), d.fields);
      AppendAssoc(log0, calls, [c]);
    }

    /** Clearing the modified flag of a sent document, which changes nothing else. */
    method ClearModified(d: Document, ghost updates: seq<Document>, ghost before: map<Document, DocState>,
                         ghost updated: seq<Document>)
      requires d in updates && d.modified
      requires UpdatesCleared(updates, before, updated)
      modifies d`modified
      ensures UpdatesCleared(updates, before, updated + [d])
      ensures old(identityMap.Coherent()) ==> identityMap.Coherent()
    {
      d.modified := false;
      forall x | x in updates
        ensures x.modified == (before[x].modified && x !in updated + [d])
      {
        assert x in updated + [d] <==> x in updated || x == d;
      }
    }

    /** One visit of the update pass: a modified document is sent and stops being modified. */
    method VisitUpdate(updates: seq<Document>, i: nat, generated: Id, ghost before: map<Document, DocState>,
                       ghost log0: seq<Call>, ghost base0: seq<StoredDoc>,
                       ghost updated: seq<Document>, ghost calls: seq<Call>)
      returns (ghost updated': seq<Document>, ghost calls': seq<Call>)
      requires i < |updates|
      requires UpdatesSent(updates, i, generated, before, log0, base0, updated, calls)
      requires UpdatesCleared(updates, before, updated) && UpdatesKeepState(updates, before)
      modifies collection, updates`modified
      ensures UpdatesSent(updates, i + 1, generated, before, log0, base0, updated', calls')
      ensures UpdatesCleared(updates, before, updated')
      ensures old(identityMap.Coherent()) ==> identityMap.Coherent()
    {
      if updates[i].modified {
        var c := SendUpdate(updates, i, generated, before, log0, base0, updated, calls);
        ClearModified(updates[i], updates, before, updated);
        updated', calls' := updated + [updates[i]], calls + [c];
      } else {
        UpdateStep(updates, i, before, generated);
        updated', calls' := updated, calls;
      }
    }

    /**
     * The update pass of `save`: every modified document among `updates`
     * is sent as one `update` call, selected by its converted id and
     * carrying its fields, and stops being modified; a document listed
     * twice is sent once, since the first visit clears its flag. The
     * documents keep their ids, fields and new flag.
     */
    method UpdatePass(updates: seq<Document>, generated: Id, ghost before: map<Document, DocState>)
      returns (ghost updated: seq<Document>, ghost calls: seq<Call>)
      requires collection.Valid()
      requires forall d :: d in updates ==> d in before && before[d] == DocState(d.id, d.isNew, d.modified, d.fields)
      modifies collection, updates`modified
      ensures updated == SentOnce(updates, before)
      ensures calls == UpdateCalls(updated, before, generated)
      ensures collection.Valid() && collection.base == old(collection.base)
      ensures collection.log == old(collection.log) + calls
      ensures collection.docs == Replay(old(collection.docs), calls)
      ensures forall d :: d in updates ==> DocState(d.id, d.isNew, d.modified, d.fields) == before[d].(modified := false)
      ensures old(identityMap.Coherent()) ==> identityMap.Coherent()
    {
      updated, calls := [], [];
      for i := 0 to |updates|
        invariant UpdatesSent(updates, i, generated, before, old(collection.log), old(collection.base),
                              updated, calls)
        invariant UpdatesCleared(updates, before, updated) && UpdatesKeepState(updates, before)
        invariant old(identityMap.Coherent()) ==> identityMap.Coherent()
      {
        updated, calls := VisitUpdate(updates, i, generated, before, old(collection.log), old(collection.base),
                                      updated, calls);
      }
      assert updates[..|updates|] == updates;
      ReplayAppend(old(collection.base), old(collection.log), calls);
    }

    /**
     * The first half of `save`: splitting the documents, as they were in
     * the states `before`, into the inserts and the updates, and the
     * insert pass over the inserts. The updates are left untouched.
     */
    method SplitAndInsert(docs: seq<Document>, newIds: seq<Id>, ghost before: map<Document, DocState>)
      returns (updates: seq<Document>, ghost inserted: seq<Document>, ghost rows: seq<StoredDoc>)
      requires collection.Valid() && |newIds| >= |docs|
      requires forall d :: d in docs ==> d in before && before[d] == DocState(d.id, d.isNew, d.modified, d.fields)
      modifies collection, identityMap, set d | d in docs
      ensures updates == Persisted(docs, before)
      ensures forall d :: d in updates ==> d in docs
      ensures forall d :: d in docs ==> (d in updates <==> !before[d].isNew)
      ensures InsertedRows(docs, before, newIds, inserted, rows)
      ensures collection.Valid() && collection.base == old(collection.base)
      ensures collection.log == old(collection.log) + (if rows == [] then [] else [BatchInsert(rows)])
      ensures collection.docs == old(collection.docs) + rows
      ensures forall i :: 0 <= i < |inserted| ==>
        DocState(inserted[i].id, inserted[i].isNew, inserted[i].modified, inserted[i].fields) == DocState(Some(newIds[i]), false, false, before[inserted[i]].fields)
      ensures forall d :: d in docs && !(before[d].isNew && before[d].modified) ==> DocState(d.id, d.isNew, d.modified, d.fields) == before[d]
      ensures identityMap.entries == old(identityMap.entries) + Registered(inserted, newIds)
      ensures old(identityMap.Coherent()) ==> identityMap.Coherent()
    {
      var inserts;
      inserts, updates := Partition(docs, before);
      inserted, rows := InsertPass(inserts, newIds);
    }

    /**
     * The second half of `save`: the update pass over the persisted
     * documents `updates` of `docs`, which leaves the new ones untouched.
     */
    method UpdatePersisted(docs: seq<Document>, updates: seq<Document>, generated: Id,
                           ghost before: map<Document, DocState>)
      returns (ghost updated: seq<Document>, ghost calls: seq<Call>)
      requires collection.Valid()
      requires forall d :: d in docs ==> d in before
      requires forall d :: d in updates ==> d in docs && before[d] == DocState(d.id, d.isNew, d.modified, d.fields)
      requires forall d :: d in docs ==> (d in updates <==> !before[d].isNew)
      modifies collection, updates`modified
      ensures updated == SentOnce(updates, before)
      ensures calls == UpdateCalls(updated, before, generated)
      ensures collection.Valid() && collection.base == old(collection.base)
      ensures collection.log == old(collection.log) + calls
      ensures collection.docs == Replay(old(collection.docs), calls)
      ensures forall d :: d in docs && !before[d].isNew ==> DocState(d.id, d.isNew, d.modified, d.fields) == before[d].(modified := false)
      ensures forall d :: d in docs && before[d].isNew ==> DocState(d.id, d.isNew, d.modified, d.fields) == old(DocState(d.id, d.isNew, d.modified, d.fields))
      ensures old(identityMap.Coherent()) ==> identityMap.Coherent()
    {
      assert forall d :: d in docs && before[d].isNew ==> d !in updates;
      updated, calls := UpdatePass(updates, generated, before);
    }

    /**
     * `save`: the new documents go to the collection in one `batchInsert`
     * and into the identity map under their fresh ids, then every modified
     * persisted document is sent in one `update` call. The fresh ids that
     * `new MongoId()` makes are `newIds`, and `generated` is the id made for
     * a persisted document without one, fresh and so naming no stored row.
     * The snapshot `before` holds the documents as they were when `save` was
     * called.
     */
    method Save(arg: DocumentArg, newIds: seq<Id>, generated: Id)
      returns (ghost before: map<Document, DocState>, ghost inserted: seq<Document>, ghost rows: seq<StoredDoc>,
               ghost updated: seq<Document>, ghost calls: seq<Call>)
      requires collection.Valid() && |newIds| >= |arg.List()|
      requires forall d :: d in collection.docs ==> d.id != generated
      modifies collection, identityMap, set d | d in arg.List()
      ensures forall d :: d in arg.List() ==> d in before && before[d] == old(DocState(d.id, d.isNew, d.modified, d.fields))
      ensures InsertedRows(arg.List(), before, newIds, inserted, rows)
      ensures updated == SentOnce(Persisted(arg.List(), before), before)
      ensures calls == UpdateCalls(updated, before, generated)
      ensures collection.Valid() && collection.base == old(collection.base)
      ensures collection.log == old(collection.log) + (if rows == [] then [] else [BatchInsert(rows)]) + calls
      ensures collection.docs == Replay(old(collection.docs) + rows, calls)
      ensures forall i :: 0 <= i < |inserted| ==>
        DocState(inserted[i].id, inserted[i].isNew, inserted[i].modified, inserted[i].fields) == DocState(Some(newIds[i]), false, false, before[inserted[i]].fields)
      ensures forall d :: d in arg.List() && before[d].isNew && !before[d].modified ==> DocState(d.id, d.isNew, d.modified, d.fields) == before[d]
      ensures forall d :: d in arg.List() && !before[d].isNew ==> DocState(d.id, d.isNew, d.modified, d.fields) == before[d].(modified := false)
      ensures identityMap.entries == old(identityMap.entries) + Registered(inserted, newIds)
      ensures old(identityMap.Coherent()) ==> identityMap.Coherent()
    {
      var docs := arg.List();
      before := TakeSnapshot(docs);
      var updates;
      updates, inserted, rows := SplitAndInsert(docs, newIds, before);
      ghost var c1 := identityMap.Coherent();
      assert old(identityMap.Coherent()) ==> c1;
      updated, calls := UpdatePersisted(docs, updates, generated, before);
    }

    /**
     * What holds after the unset loop of `delete` has handled the first `i`
     * documents, starting from the entries `entries0` and an identity map
     * that was coherent if `coherent0`.
     */
    ghost predicate UnsetUpTo(docs: seq<Document>, i: nat, before: map<Document, DocState>, keys: seq<string>,
                              entries0: map<string, Document>, coherent0: bool)
      reads this, identityMap, identityMap.entries.Values, docs
    {
      && i <= |docs| && |keys| == i
      && (forall d :: d in docs ==> d in before)
      && (forall k :: 0 <= k < i ==> keys[k] == (if docs[k] in docs[..k] then "" else IdKey(before[docs[k]].id)))
      && (forall k :: 0 <= k < i ==> docs[k].id.None? && docs[k].isNew)
      && (forall k :: i <= k < |docs| && docs[k] !in docs[..i] ==> docs[k].id == before[docs[k]].id)
      && identityMap.entries == Unset(entries0, keys)
      && (coherent0 ==> identityMap.Coherent() && forall k :: 0 <= k < i ==> docs[k] !in identityMap.entries.Values)
    }

    /** `unset` of a document's identity-map key: in a coherent map this takes the document out of it. */
    method UnsetKey(d: Document)
      modifies identityMap`entries
      ensures identityMap.entries == old(identityMap.entries) - {IdKey(d.id)}
      ensures old(identityMap.Coherent()) ==> identityMap.Coherent() && d !in identityMap.entries.Values
    {
      var key := IdKey(d.id);
      if identityMap.Coherent() && d in identityMap.entries.Values {
        var k :| k in identityMap.entries && identityMap.entries[k] == d;
        forall k2 | k2 in identityMap.entries && k2 != key
          ensures identityMap.entries[k2] != d
        {
          CoherentOneKeyPerInstance(identityMap, k, k2);
        }
      }
      identityMap.entries := identityMap.entries - {key};
    }

    /** `setIsNew(true)` and `setId(null)`: a document outside the identity map leaves it coherent. */
    method MarkNew(d: Document)
      modifies d`id, d`isNew
      ensures d.id == None && d.isNew
      ensures old(identityMap.Coherent()) && d !in identityMap.entries.Values ==> identityMap.Coherent()
    {
      d.isNew := true;
      d.id := None;
    }

    /** Unsetting the next document's key, marking it new and clearing its id. */
    method UnsetNext(docs: seq<Document>, i: nat, d: Document, ghost before: map<Document, DocState>, ghost keys: seq<string>,
                     ghost entries0: map<string, Document>, ghost coherent0: bool)
      returns (ghost keys': seq<string>)
      requires i < |docs| && d == docs[i]
      requires UnsetUpTo(docs, i, before, keys, entries0, coherent0)
      modifies identityMap`entries, d`id, d`isNew
      ensures keys' == keys + [old(IdKey(d.id))]
      ensures UnsetUpTo(docs, i + 1, before, keys', entries0, coherent0)
    {
      assert docs[..i + 1] == docs[..i] + [d];
      var key := IdKey(d.id);
      UnsetKey(d);
      MarkNew(d);
      keys' := keys + [key];
      assert keys'[..|keys'| - 1] == keys;
    }

    /** The `remove` of `delete`: one call with the ids of all the documents. */
    method RemoveAll(docs: seq<Document>, generated: Id) returns (ghost ids: seq<Id>)
      requires collection.Valid()
      modifies collection
      ensures |ids| == |docs|
      ensures forall i :: 0 <= i < |docs| ==> ids[i] == MongoIdOf(docs[i].id, generated)
      ensures collection.Valid() && collection.base == old(collection.base)
      ensures collection.log == old(collection.log) + [Remove(ids)]
      ensures collection.docs == RemoveIds(old(collection.docs), ids)
    {
      var mongoIds := MongoIds(docs, generated);
      collection.Remove(mongoIds);
      ids := mongoIds;
    }

    /** The unset loop of `delete`. */
    method UnsetAll(docs: seq<Document>, ghost before: map<Document, DocState>) returns (ghost keys: seq<string>)
      requires forall d :: d in docs ==> d in before && before[d].id == d.id
      modifies identityMap`entries, docs`id, docs`isNew
      ensures UnsetKeys(docs, before, keys)
      ensures forall d :: d in docs ==> d.id == None && d.isNew
      ensures identityMap.entries == Unset(old(identityMap.entries), keys)
      ensures old(identityMap.Coherent()) ==>
        identityMap.Coherent() && forall d :: d in docs ==> d !in identityMap.entries.Values
    {
      keys := [];
      for i := 0 to |docs|
        invariant UnsetUpTo(docs, i, before, keys, old(identityMap.entries), old(identityMap.Coherent()))
      {
        keys := UnsetNext(docs, i, docs[i], before, keys, old(identityMap.entries), old(identityMap.Coherent()));
      }
    }

    /**
     * `delete`: the ids of all the documents, converted by `idToMongo`, go
     * to storage in one `remove`; then each document's key is unset in the
     * identity map, and the document is marked new and loses its id.
     * `generated` is the id made for a document without one, fresh and so
     * naming no stored row, and `before` holds the documents as they were
     * when `delete` was called.
     */
    method Delete(arg: DocumentArg, generated: Id)
      returns (ghost before: map<Document, DocState>, ghost ids: seq<Id>, ghost keys: seq<string>)
      requires collection.Valid()
      requires forall d :: d in collection.docs ==> d.id != generated
      modifies collection, identityMap`entries, arg.List()`id, arg.List()`isNew
      ensures forall d :: d in arg.List() ==> d in before && before[d] == old(DocState(d.id, d.isNew, d.modified, d.fields))
      ensures |ids| == |arg.List()|
      ensures forall i :: 0 <= i < |ids| ==> ids[i] == MongoIdOf(before[arg.List()[i]].id, generated)
      ensures collection.Valid() && collection.base == old(collection.base)
      ensures collection.log == old(collection.log) + [Remove(ids)]
      ensures collection.docs == RemoveIds(old(collection.docs), ids)
      ensures UnsetKeys(arg.List(), before, keys)
      ensures identityMap.entries == Unset(old(identityMap.entries), keys)
      ensures forall d :: d in arg.List() ==> d.id == None && d.isNew
      ensures old(identityMap.Coherent()) ==>
        identityMap.Coherent() && forall d :: d in arg.List() ==> d !in identityMap.entries.Values
    {
      var docs := arg.List();
      before := TakeSnapshot(docs);
      ids := RemoveAll(docs, generated);
      ghost var c1 := identityMap.Coherent();
      assert old(identityMap.Coherent()) ==> c1;
      keys := UnsetAll(docs, before);
    }

    /**
     * One round of the corrected single-reference loop: read the page at
     * `skip`; stop when it yields no ids; remove the owners of its missing
     * ids, if any, and read the same page again, or else move to the next
     * page. `done` are the calls made since the sweep `r` began at `log0`.
     */
    method SingleSweepRound(field: string, existing: set<Id>, limit: nat, skip: nat,
                       ghost log0: seq<Call>, ghost done: seq<Call>, ghost r: SweepResult)
      returns (more: bool, skip': nat, ghost done': seq<Call>)
      requires collection.Valid() && collection.log == log0 + done
      requires limit > 0
      requires Then(done, SweepOneFixedFrom(collection.docs, field, existing, limit, skip)) == r
      modifies collection
      ensures collection.Valid() && collection.base == old(collection.base)
      ensures collection.log == log0 + done'
      ensures more ==> Then(done', SweepOneFixedFrom(collection.docs, field, existing, limit, skip')) == r
      ensures more ==> 0 < old(|Owners(collection.docs, field)|) - skip
      ensures more ==> |Owners(collection.docs, field)| - skip' < old(|Owners(collection.docs, field)|) - skip
      ensures !more ==> collection.docs == r.docs && done' == r.calls
    {
      SweepOneRound(collection.docs, field, existing, limit, skip, done, r);
      var ids := SingleIds(Page(collection.docs, field, skip, limit), field);
      if |ids| == 0 {
        return false, skip, done;
      }
      var diff := MissingIds(ids, existing);
      if |diff| > 0 {
        AppendAssoc(log0, done, [RemoveMatching(field, diff)]);
        collection.RemoveWhere(field, diff);
        return true, skip, done + [RemoveMatching(field, diff)];
      }
      return true, NextPage(skip, limit), done;
    }

    /**
     * One single-reference sweep of `fixMissingReferences` over `field`,
     * against the ids `existing` of the target collection, `limit` rows per
     * page, in its corrected form: after a removal the same page is read
     * again. It leaves the rows and makes the calls `SweepOneFixedFrom`
     * describes.
     */
    method RepairSingle(field: string, existing: set<Id>, limit: nat) returns (ghost r: SweepResult)
      requires collection.Valid() && limit > 0
      modifies collection
      ensures r == SweepOneFixedFrom(old(collection.docs), field, existing, limit, 0)
      ensures collection.Valid() && collection.base == old(collection.base)
      ensures collection.docs == r.docs
      ensures collection.log == old(collection.log) + r.calls
    {
      r := SweepOneFixedFrom(collection.docs, field, existing, limit, 0);
      assert [] + r.calls == r.calls;
      ghost var done: seq<Call> := [];
      var skip := 0;
      var more := true;
      while more
        invariant collection.Valid() && collection.base == old(collection.base)
        invariant collection.log == old(collection.log) + done
        invariant more ==> Then(done, SweepOneFixedFrom(collection.docs, field, existing, limit, skip)) == r
        invariant !more ==> collection.docs == r.docs && done == r.calls
        decreases more, |Owners(collection.docs, field)| - skip
      {
        more, skip, done := SingleSweepRound(field, existing, limit, skip, old(collection.log), done, r);
      }
    }

    /**
     * One round of the corrected multi-reference loop: read the page at
     * `skip`; stop when it is empty; pull its missing ids, if any, out of
     * every row's list; move to the next page.
     */
    method ManySweepRound(field: string, existing: set<Id>, limit: nat, skip: nat,
                     ghost log0: seq<Call>, ghost done: seq<Call>, ghost r: SweepResult)
      returns (more: bool, skip': nat, ghost done': seq<Call>)
      requires collection.Valid() && collection.log == log0 + done
      requires limit > 0
      requires Then(done, SweepManyFixedFrom(collection.docs, field, existing, limit, skip)) == r
      modifies collection
      ensures collection.Valid() && collection.base == old(collection.base)
      ensures collection.log == log0 + done'
      ensures more ==> Then(done', SweepManyFixedFrom(collection.docs, field, existing, limit, skip')) == r
      ensures more ==> 0 < old(|Owners(collection.docs, field)|) - skip
      ensures more ==> |Owners(collection.docs, field)| - skip' < old(|Owners(collection.docs, field)|) - skip
      ensures !more ==> collection.docs == r.docs && done' == r.calls
    {
      SweepManyRound(collection.docs, field, existing, limit, skip, done, r);
      var page := Page(collection.docs, field, skip, limit);
      if |page| == 0 {
        return false, skip, done;
      }
      var diff := MissingIds(ManyIds(page, field), existing);
      if |diff| > 0 {
        AppendAssoc(log0, done, [PullMatching(field, diff)]);
        collection.Pull(field, diff);
        return true, NextPage(skip, limit), done + [PullMatching(field, diff)];
      }
      return true, NextPage(skip, limit), done;
    }

    /**
     * The multi-reference sweep of `fixMissingReferences` over `field`, in
     * its corrected form: it stops at the first empty page, not at the first
     * page that yields no ids. It leaves the rows and makes the calls
     * `SweepManyFixedFrom` describes.
     */
    method RepairMany(field: string, existing: set<Id>, limit: nat) returns (ghost r: SweepResult)
      requires collection.Valid() && limit > 0
      modifies collection
      ensures r == SweepManyFixedFrom(old(collection.docs), field, existing, limit, 0)
      ensures collection.Valid() && collection.base == old(collection.base)
      ensures collection.docs == r.docs
      ensures collection.log == old(collection.log) + r.calls
    {
      r := SweepManyFixedFrom(collection.docs, field, existing, limit, 0);
      assert [] + r.calls == r.calls;
      ghost var done: seq<Call> := [];
      var skip := 0;
      var more := true;
      while more
        invariant collection.Valid() && collection.base == old(collection.base)
        invariant collection.log == old(collection.log) + done
        invariant more ==> Then(done, SweepManyFixedFrom(collection.docs, field, existing, limit, skip)) == r
        invariant !more ==> collection.docs == r.docs && done == r.calls
        decreases more, |Owners(collection.docs, field)| - skip
      {
        more, skip, done := ManySweepRound(field, existing, limit, skip, old(collection.log), done, r);
      }
    }

    /**
     * `fixMissingReferences`: the `author` sweep against the ids of the
     * authors, the `information` sweep against the ids of the article
     * informations, then the `categories` sweep against the ids of the
     * categories, `documentsPerBatch` rows per page, each sweep in its
     * corrected form. Afterwards no row points at a missing row.
     */
    method FixMissingReferences(documentsPerBatch: nat, authors: set<Id>, informations: set<Id>, categories: set<Id>)
      returns (ghost r: SweepResult)
      requires collection.Valid() && documentsPerBatch > 0
      modifies collection
      ensures r == RepairAll(old(collection.docs), authors, informations, categories, documentsPerBatch)
      ensures collection.Valid() && collection.base == old(collection.base)
      ensures collection.docs == r.docs
      ensures collection.log == old(collection.log) + r.calls
      ensures forall d :: d in collection.docs ==>
        !Dangling(d, "author", authors) && !Dangling(d, "information", informations) && Clean(d, "categories", categories)
    {
      var a := RepairSingle("author", authors, documentsPerBatch);
      var b := RepairSingle("information", informations, documentsPerBatch);
      var c := RepairMany("categories", categories, documentsPerBatch);
      r := SweepResult(c.docs, a.calls + b.calls + c.calls);
      RepairAllComplete(old(collection.docs), authors, informations, categories, documentsPerBatch);
      AppendAssoc(old(collection.log), a.calls, b.calls);
      AppendAssoc(old(collection.log) + a.calls, b.calls, c.calls);
      AppendAssoc(old(collection.log), a.calls + b.calls, c.calls);
    }
  }
}

=== FILE: documents.dfy ===
/**
 * In-memory documents and the identity map that holds the one live instance
 * of every stored document, keyed by the string form of its id.
 */
module Documents {
  import opened Wrappers
  import opened Ids

  /** A document object: its id (absent until inserted), its lifecycle flags and its fields. */
  class Document {
    var id: Option<Id>
    var isNew: bool
    var modified: bool
    var fields: map<string, Value>

    /** A document built from a stored row (`setDocumentData`): persisted, unmodified. */
    constructor Loaded(rowId: Id, data: map<string, Value>)
      ensures id == Some(rowId) && !isNew && !modified && fields == data
    {
      id := Some(rowId);
      isNew := false;
      modified := false;
      fields := data;
    }

    /** `$document->get($field)`: the field's value, or null when it is not set. */
    function Get(field: string): Value
      reads this
    {
      if field in fields then fields[field] else Null
    }
  }

  /** The identity map of one document class, shared by its repository and its queries. */
  class IdentityMap {
    var entries: map<string, Document>

    /**
     * Every entry holds a persisted document filed under the string form of
     * its own id: the identity-map invariant of the document mapper.
     */
    ghost predicate Coherent()
      reads this`entries, entries.Values`id, entries.Values`isNew
    {
      forall k :: k in entries ==>
        && entries[k].id.Some?
        && IdString(entries[k].id.value) == k
        && !entries[k].isNew
    }
  }

  /** In a coherent identity map a document object sits under one key only: one instance per id. */
  lemma CoherentOneKeyPerInstance(im: IdentityMap, k1: string, k2: string)
    requires im.Coherent()
    requires k1 in im.entries && k2 in im.entries
    ensures im.entries[k1] == im.entries[k2] <==> k1 == k2
  {
  }

  /** In a coherent identity map a key determines the id of the document under it. */
  lemma CoherentKeyDeterminesId(im: IdentityMap, id: Id)
    requires im.Coherent()
    requires IdString(id) in im.entries
    ensures im.entries[IdString(id)].id == Some(id)
  {
    IdStringInjective(im.entries[IdString(id)].id.value, id);
  }
}

=== FILE: ids.dfy ===
/**
 * Document identifiers (MongoDB object ids) and the values a document field
 * can hold. An object id is twelve bytes; its string form, used as the key of
 * the identity map, is the 24-character lower-case hexadecimal rendering of
 * those bytes. The string form is injective because it can be parsed back.
 */
module Ids {
  import opened Wrappers

  type Byte = x: int | 0 <= x < 256

  type ObjectIdBytes = s: seq<Byte> | |s| == 12 witness [0, 0, 0, 0, 0, 0, 0, 0, 0, 0, 0, 0]

  datatype Id = Id(bytes: ObjectIdBytes)

  /** Lower-case hexadecimal digit for a nibble. */
  function HexDigit(n: nat): (c: char)
    requires n < 16
    ensures DigitValue(c) == Some(n)
  {
    if n < 10 then ('0' as int + n) as char else ('a' as int + n - 10) as char
  }

  /** The nibble a hexadecimal digit stands for, in either case. */
  function DigitValue(c: char): (r: Option<nat>)
    ensures r.Some? ==> r.value < 16
  {
    if '0' <= c <= '9' then Some(c as int - '0' as int)
    else if 'a' <= c <= 'f' then Some(c as int - 'a' as int + 10)
    else if 'A' <= c <= 'F' then Some(c as int - 'A' as int + 10)
    else None
  }

  /** The hexadecimal rendering of bytes: two digits per byte, high nibble first. */
  function ToHex(bs: seq<Byte>): (s: string)
    ensures |s| == 2 * |bs|
  {
    seq(2 * |bs|, i requires 0 <= i < 2 * |bs| =>
      if i % 2 == 0 then HexDigit(bs[i / 2] / 16) else HexDigit(bs[i / 2] % 16))
  }

  /** Every character of a rendering is a hexadecimal digit. */
  lemma ToHexDigits(bs: seq<Byte>)
    ensures forall i :: 0 <= i < |ToHex(bs)| ==> DigitValue(ToHex(bs)[i]).Some?
  {
  }

  /** The byte that two hexadecimal digits stand for. */
  function PairValue(hi: char, lo: char): (b: Byte)
    requires DigitValue(hi).Some? && DigitValue(lo).Some?
  {
    DigitValue(hi).value * 16 + DigitValue(lo).value
  }

  /** The bytes a string of hexadecimal digits stands for, or nothing when it is not one. */
  function FromHex(s: string): (r: Option<seq<Byte>>)
    ensures r.Some? ==> 2 * |r.value| == |s|
  {
    if |s| % 2 == 0 && forall i :: 0 <= i < |s| ==> DigitValue(s[i]).Some? then
      Some(seq(|s| / 2, j requires 0 <= j < |s| / 2 => PairValue(s[2 * j], s[2 * j + 1])))
    else None
  }

  /** Parsing undoes printing: the hexadecimal rendering loses nothing. */
  lemma FromHexToHex(bs: seq<Byte>)
    ensures FromHex(ToHex(bs)) == Some(bs)
  {
    var s := ToHex(bs);
    ToHexDigits(bs);
    var r := FromHex(s).value;
    assert |r| == |bs|;
    forall j | 0 <= j < |bs| ensures r[j] == bs[j] {
      assert s[2 * j] == HexDigit(bs[j] / 16) && s[2 * j + 1] == HexDigit(bs[j] % 16);
      assert r[j] == PairValue(s[2 * j], s[2 * j + 1]) == bs[j] / 16 * 16 + bs[j] % 16;
    }
    assert r == bs;
  }

  /** The id's string form, `(string) $mongoId` in the source. */
  function IdString(id: Id): (s: string)
    ensures |s| == 24
  {
    ToHex(id.bytes)
  }

  /** `new MongoId($s)` for a string: a 24-digit hexadecimal string, or nothing. */
  function ParseId(s: string): (r: Option<Id>)
    ensures r.Some? ==> |s| == 24
  {
    if |s| != 24 then None
    else
      match FromHex(s)
      case Some(bs) => Some(Id(bs))
      case None => None
  }

  /** Parsing the string form of an id gives the id back. */
  lemma ParseIdString(id: Id)
    ensures ParseId(IdString(id)) == Some(id)
  {
    FromHexToHex(id.bytes);
  }

  /** Two ids with the same string form are the same id. */
  lemma IdStringInjective(a: Id, b: Id)
    requires IdString(a) == IdString(b)
    ensures a == b
  {
    ParseIdString(a);
    ParseIdString(b);
  }

  /** A field value as the driver hands it back. */
  datatype Value =
    | Null
    | Bool(b: bool)
    | Int(i: int)
    | Str(s: string)
    | ObjectId(id: Id)
    | Array(elems: seq<Value>)

  /** PHP truthiness of a value, as used by `if ($id = $document->get($field))`. */
  predicate Truthy(v: Value)
  {
    match v
    case Null => false
    case Bool(b) => b
    case Int(i) => i != 0
    case Str(s) => s != "" && s != "0"
    case ObjectId(_) => true
    case Array(elems) => |elems| > 0
  }

  /** The errors the core raises. */
  datatype Error =
    | InvalidId(v: Value)                                // new \MongoId($id) refused the value
    | BadValue(expected: string)                         // "Bad value: type string expected"
    | InvalidReference(reference: string, documentClass: string)
}

=== FILE: message_query.dfy ===
/**
 * The query of message documents: the `findBy...` filters that add one
 * criterion each, and `all`, which turns the rows a query returns into the
 * one live document instance per id and then eager-loads the requested
 * references with one batched `findById` per reference.
 */
module MessageQuery {
  import opened Wrappers
  import opened Ids
  import opened Seqs
  import opened Documents
  import opened Storage

  const DocumentClass: string := "Model\\Message"

  // ----- criteria -----

  /** The criterion on one field: equal to a value, or `['$in' => values]`. */
  datatype Condition = Is(v: Value) | In(vs: seq<Value>)

  /** A query's criteria: one condition per field. */
  type Criteria = map<string, Condition>

  /**
   * `mergeCriteria`: the added criteria are merged into the query's, a
   * field that is already constrained takes the new condition.
   */
  function Merge(criteria: Criteria, added: Criteria): (r: Criteria)
    ensures r.Keys == criteria.Keys + added.Keys
    ensures forall k :: k in added ==> r[k] == added[k]
    ensures forall k :: k in criteria && k !in added ==> r[k] == criteria[k]
  {
    criteria + added
  }

  /** Whether a field value satisfies a condition. */
  predicate Satisfies(c: Condition, v: Value)
  {
    match c
    case Is(x) => v == x
    case In(xs) => v in xs
  }

  /** Whether a stored row satisfies every condition of the criteria (a missing field is null). */
  predicate Matches(criteria: Criteria, row: StoredDoc)
  {
    forall k :: k in criteria ==> Satisfies(criteria[k], FieldOf(row, k))
  }

  /**
   * The filter on a string field shared by `findByAuthor` and
   * `findByText`: the value must already be a string (casting it to a
   * string must give it back unchanged), otherwise the query refuses it
   * before its criteria change.
   */
  function FindByString(criteria: Criteria, field: string, value: Value): (r: Result<Criteria, Error>)
    ensures r.Success? <==> value.Str?
    ensures r.Failure? ==> r.error == BadValue("string")
    ensures r.Success? ==> r.value.Keys == criteria.Keys + {field} && r.value[field] == Is(value)
    ensures r.Success? ==> forall k :: k in criteria && k != field ==> r.value[k] == criteria[k]
  {
    if value.Str? then Success(Merge(criteria, map[field := Is(value)]))
    else Failure(BadValue("string"))
  }

  /** `findByAuthor`. */
  function FindByAuthor(criteria: Criteria, value: Value): (r: Result<Criteria, Error>)
    ensures r.Success? <==> value.Str?
    ensures r.Failure? ==> r.error == BadValue("string")
    ensures r.Success? ==> r.value.Keys == criteria.Keys + {"author"} && r.value["author"] == Is(value)
    ensures r.Success? ==> forall k :: k in criteria && k != "author" ==> r.value[k] == criteria[k]
  {
    FindByString(criteria, "author", value)
  }

  /** `findByText`. */
  function FindByText(criteria: Criteria, value: Value): (r: Result<Criteria, Error>)
    ensures r.Success? <==> value.Str?
    ensures r.Failure? ==> r.error == BadValue("string")
    ensures r.Success? ==> r.value.Keys == criteria.Keys + {"text"} && r.value["text"] == Is(value)
    ensures r.Success? ==> forall k :: k in criteria && k != "text" ==> r.value[k] == criteria[k]
  {
    FindByString(criteria, "text", value)
  }

  /**
   * `findByReplyTo`: the criterion `replyTo` equal to the id. `id` is the
   * value after `valueToMongoId`.
   */
  function FindByReplyTo(criteria: Criteria, id: Id): (r: Criteria)
    ensures r.Keys == criteria.Keys + {"replyTo"} && r["replyTo"] == Is(ObjectId(id))
    ensures forall k :: k in criteria && k != "replyTo" ==> r[k] == criteria[k]
  {
    Merge(criteria, map["replyTo" := Is(ObjectId(id))])
  }

  /** The ids as driver values, in order. */
  function IdValues(ids: seq<Id>): (r: seq<Value>)
    ensures forall v :: v in r <==> v.ObjectId? && v.id in ids
  {
    var r := seq(|ids|, i requires 0 <= i < |ids| => ObjectId(ids[i]));
    assert forall i :: 0 <= i < |ids| ==> r[i] == ObjectId(ids[i]);
    r
  }

  /**
   * `findByReplyToIds`: the criterion `replyTo` in the ids. `ids` are the
   * values after `idsToMongo`.
   */
  function FindByReplyToIds(criteria: Criteria, ids: seq<Id>): (r: Criteria)
    ensures r.Keys == criteria.Keys + {"replyTo"} && r["replyTo"] == In(IdValues(ids))
    ensures forall k :: k in criteria && k != "replyTo" ==> r[k] == criteria[k]
  {
    Merge(criteria, map["replyTo" := In(IdValues(ids))])
  }

  /**
   * A string filter narrows the query: a row matches the new criteria
   * exactly when it matches the other criteria and holds the string.
   */
  lemma FindByStringNarrows(criteria: Criteria, field: string, s: string, row: StoredDoc)
    ensures FindByString(criteria, field, Str(s)).Success?
    ensures Matches(FindByString(criteria, field, Str(s)).value, row) <==>
      Matches(criteria - {field}, row) && FieldOf(row, field) == Str(s)
  {
    var r := FindByString(criteria, field, Str(s)).value;
    if Matches(criteria - {field}, row) && FieldOf(row, field) == Str(s) {
      forall k | k in r ensures Satisfies(r[k], FieldOf(row, k)) {
        if k != field {
          assert k in criteria - {field};
        }
      }
    }
  }

  /** The value given last wins: filtering a field twice keeps only the second value. */
  lemma FindByStringLastWins(criteria: Criteria, field: string, a: Value, b: Value)
    requires a.Str?
    ensures FindByString(FindByString(criteria, field, a).value, field, b) == FindByString(criteria, field, b)
  {
    if b.Str? {
      assert FindByString(FindByString(criteria, field, a).value, field, b).value == FindByString(criteria, field, b).value;
    }
  }

  /** Filters on different fields commute. */
  lemma FindByAuthorTextCommute(criteria: Criteria, author: string, text: string)
    ensures FindByText(FindByAuthor(criteria, Str(author)).value, Str(text)).value ==
            FindByAuthor(FindByText(criteria, Str(text)).value, Str(author)).value
  {
    var a := FindByText(FindByAuthor(criteria, Str(author)).value, Str(text)).value;
    var b := FindByAuthor(FindByText(criteria, Str(text)).value, Str(author)).value;
    assert forall k :: k in a ==> a[k] == b[k];
  }

  /** A row matches `findByReplyTo` exactly when it matches the other criteria and refers to the id. */
  lemma FindByReplyToNarrows(criteria: Criteria, id: Id, row: StoredDoc)
    ensures Matches(FindByReplyTo(criteria, id), row) <==>
      Matches(criteria - {"replyTo"}, row) && FieldOf(row, "replyTo") == ObjectId(id)
  {
    var r := FindByReplyTo(criteria, id);
    if Matches(criteria - {"replyTo"}, row) && FieldOf(row, "replyTo") == ObjectId(id) {
      forall k | k in r ensures Satisfies(r[k], FieldOf(row, k)) {
        if k != "replyTo" {
          assert k in criteria - {"replyTo"};
        }
      }
    }
  }

  /** A row matches `findByReplyToIds` exactly when it matches the other criteria and refers to one of the ids. */
  lemma FindByReplyToIdsNarrows(criteria: Criteria, ids: seq<Id>, row: StoredDoc)
    ensures Matches(FindByReplyToIds(criteria, ids), row) <==>
      Matches(criteria - {"replyTo"}, row) && FieldOf(row, "replyTo").ObjectId? && FieldOf(row, "replyTo").id in ids
  {
    var r := FindByReplyToIds(criteria, ids);
    var v := FieldOf(row, "replyTo");
    if Matches(criteria - {"replyTo"}, row) && v in IdValues(ids) {
      forall k | k in r ensures Satisfies(r[k], FieldOf(row, k)) {
        if k != "replyTo" {
          assert k in criteria - {"replyTo"};
        }
      }
    }
  }

  // ----- reference eager-loading -----

  /** A declared reference: the document class it points to and the field that stores it. */
  datatype Reference = Reference(targetClass: string, field: string)

  /** The references the message class declares: single references and lists of references. */
  datatype Metadata = Metadata(referencesOne: map<string, Reference>, referencesMany: map<string, Reference>)

  /** One `findById` call on the repository of `targetClass`. */
  datatype Lookup = FindById(targetClass: string, ids: seq<Value>)

  /** The lookups made while eager-loading, and the error that ended it, if any. */
  datatype Loading = Loading(lookups: seq<Lookup>, error: Option<Error>)

  /** `$document->get($field)` on a document's field values: null when the field is unset. */
  function FieldValue(fields: map<string, Value>, field: string): Value
  {
    if field in fields then fields[field] else Null
  }

  /**
   * The ids a single reference collects, in document order: the truthy
   * values of its field (`if ($id = $document->get($field))`).
   */
  function OneValues(data: seq<map<string, Value>>, field: string): (r: seq<Value>)
    ensures forall v :: v in r ==> Truthy(v)
    ensures forall v :: v in r <==>
      exists i :: 0 <= i < |data| && Truthy(FieldValue(data[i], field)) && FieldValue(data[i], field) == v
  {
    if data == [] then []
    else
      var v := FieldValue(data[|data| - 1], field);
      var r := OneValues(data[..|data| - 1], field);
      assert forall i :: 0 <= i < |data| - 1 ==> data[..|data| - 1][i] == data[i];
      if Truthy(v) then r + [v] else r
  }

  /** What a list reference contributes from one document: the elements of a non-empty array. */
  function Elements(v: Value): seq<Value>
  {
    if Truthy(v) && v.Array? then v.elems else []
  }

  /** The ids a list reference collects, in document order: the documents' arrays, flattened. */
  function ManyValues(data: seq<map<string, Value>>, field: string): (r: seq<Value>)
    ensures forall v :: v in r <==>
      exists i :: 0 <= i < |data| && v in Elements(FieldValue(data[i], field))
  {
    if data == [] then []
    else
      var r := ManyValues(data[..|data| - 1], field);
      assert forall i :: 0 <= i < |data| - 1 ==> data[..|data| - 1][i] == data[i];
      r + Elements(FieldValue(data[|data| - 1], field))
  }

  /** `if ($ids) { findById(array_unique($ids)) }`: one call with the distinct ids, none without ids. */
  function Batch(targetClass: string, ids: seq<Value>): (r: seq<Lookup>)
    ensures |r| == 0 <==> |ids| == 0
    ensures |r| <= 1
    ensures forall l :: l in r ==> l.targetClass == targetClass && Distinct(l.ids) && forall v :: v in l.ids <==> v in ids
  {
    if |ids| == 0 then [] else [FindById(targetClass, Dedup(ids))]
  }

  /** A reference name the metadata declares neither as a single reference nor as a list. */
  predicate Undeclared(metadata: Metadata, name: string)
  {
    name !in metadata.referencesOne && name !in metadata.referencesMany
  }

  /**
   * Eager-loading one reference: a single reference is looked up by the
   * truthy values of its field, a list reference (checked second) by the
   * elements of its arrays; an undeclared name is an error naming it and the
   * document class.
   */
  function LoadOne(name: string, metadata: Metadata, data: seq<map<string, Value>>): (r: Result<seq<Lookup>, Error>)
    ensures r.Failure? <==> Undeclared(metadata, name)
    ensures r.Failure? ==> r.error == InvalidReference(name, DocumentClass)
    ensures r.Success? ==> |r.value| <= 1 && forall l :: l in r.value ==> |l.ids| > 0 && Distinct(l.ids)
    ensures name in metadata.referencesOne ==>
      var ref := metadata.referencesOne[name];
      && (|r.value| == 1 <==> exists i :: 0 <= i < |data| && Truthy(FieldValue(data[i], ref.field)))
      && forall l :: l in r.value ==>
           && l.targetClass == ref.targetClass
           && forall v :: v in l.ids <==> exists i :: 0 <= i < |data| && Truthy(FieldValue(data[i], ref.field)) && FieldValue(data[i], ref.field) == v
    ensures name !in metadata.referencesOne && name in metadata.referencesMany ==>
      var ref := metadata.referencesMany[name];
      && (|r.value| == 1 <==> exists i :: 0 <= i < |data| && |Elements(FieldValue(data[i], ref.field))| > 0)
      && forall l :: l in r.value ==>
           && l.targetClass == ref.targetClass
           && forall v :: v in l.ids <==> exists i :: 0 <= i < |data| && v in Elements(FieldValue(data[i], ref.field))
  {
    if name in metadata.referencesOne then
      var ref := metadata.referencesOne[name];
      var ids := OneValues(data, ref.field);
      assert |ids| > 0 <==> exists i :: 0 <= i < |data| && Truthy(FieldValue(data[i], ref.field)) by {
        if i :| 0 <= i < |data| && Truthy(FieldValue(data[i], ref.field)) {
          assert FieldValue(data[i], ref.field) in ids;
        }
        if |ids| > 0 {
          assert ids[0] in ids;
        }
      }
      Success(Batch(ref.targetClass, ids))
    else if name in metadata.referencesMany then
      var ref := metadata.referencesMany[name];
      var ids := ManyValues(data, ref.field);
      assert |ids| > 0 <==> exists i :: 0 <= i < |data| && |Elements(FieldValue(data[i], ref.field))| > 0 by {
        if i :| 0 <= i < |data| && |Elements(FieldValue(data[i], ref.field))| > 0 {
          assert Elements(FieldValue(data[i], ref.field))[0] in ids;
        }
        if |ids| > 0 {
          assert ids[0] in ids;
        }
      }
      Success(Batch(ref.targetClass, ids))
    else
      Failure(InvalidReference(name, DocumentClass))
  }

  /** The reference loop of `all`, over the requested names in order, stopping at the first error. */
  function LoadAll(names: seq<string>, metadata: Metadata, data: seq<map<string, Value>>): (r: Loading)
    ensures |r.lookups| <= |names|
    ensures forall l :: l in r.lookups ==> |l.ids| > 0 && Distinct(l.ids)
  {
    if names == [] then Loading([], None)
    else
      var before := LoadAll(names[..|names| - 1], metadata, data);
      if before.error.Some? then before
      else
        match LoadOne(names[|names| - 1], metadata, data)
        case Failure(e) => Loading(before.lookups, Some(e))
        case Success(ls) => Loading(before.lookups + ls, None)
  }

  /** Once a name has failed, the names after it change nothing. */
  lemma {:induction false} LoadAllKeepsError(names: seq<string>, metadata: Metadata, data: seq<map<string, Value>>, k: nat)
    requires k <= |names| && LoadAll(names[..k], metadata, data).error.Some?
    ensures LoadAll(names, metadata, data) == LoadAll(names[..k], metadata, data)
    decreases |names| - k
  {
    if k < |names| {
      assert names[..|names| - 1][..k] == names[..k];
      LoadAllKeepsError(names[..|names| - 1], metadata, data, k);
    } else {
      assert names[..k] == names;
    }
  }

  /** Loading one more name after a prefix that has not failed. */
  lemma LoadAllStep(names: seq<string>, i: nat, metadata: Metadata, data: seq<map<string, Value>>)
    requires i < |names| && LoadAll(names[..i], metadata, data).error.None?
    ensures LoadAll(names[..i + 1], metadata, data) ==
      match LoadOne(names[i], metadata, data)
      case Failure(e) => Loading(LoadAll(names[..i], metadata, data).lookups, Some(e))
      case Success(ls) => Loading(LoadAll(names[..i], metadata, data).lookups + ls, None)
  {
    assert names[..i + 1][..i] == names[..i];
  }

  /** Loading succeeds exactly when every requested name is declared. */
  lemma {:induction false} LoadAllSucceeds(names: seq<string>, metadata: Metadata, data: seq<map<string, Value>>)
    ensures LoadAll(names, metadata, data).error.None? <==> forall i :: 0 <= i < |names| ==> !Undeclared(metadata, names[i])
  {
    if names != [] {
      var init := names[..|names| - 1];
      LoadAllSucceeds(init, metadata, data);
      assert forall i :: 0 <= i < |init| ==> init[i] == names[i];
    }
  }

  /** The first undeclared name ends loading with its error, after the lookups of the names before it. */
  lemma LoadAllFirstError(names: seq<string>, i: nat, metadata: Metadata, data: seq<map<string, Value>>)
    requires i < |names| && Undeclared(metadata, names[i])
    requires forall j :: 0 <= j < i ==> !Undeclared(metadata, names[j])
    ensures LoadAll(names, metadata, data) ==
      Loading(LoadAll(names[..i], metadata, data).lookups, Some(InvalidReference(names[i], DocumentClass)))
  {
    assert forall j :: 0 <= j < i ==> names[..i][j] == names[j];
    LoadAllSucceeds(names[..i], metadata, data);
    LoadAllStep(names, i, metadata, data);
    LoadAllKeepsError(names, metadata, data, i + 1);
  }

  /**
   * Loading fails exactly when a requested name is undeclared, and then with
   * the first such name; the lookups made are those of the names before it.
   */
  lemma LoadAllFailsAtFirstUndeclared(names: seq<string>, metadata: Metadata, data: seq<map<string, Value>>)
    ensures LoadAll(names, metadata, data).error.None? <==> forall i :: 0 <= i < |names| ==> !Undeclared(metadata, names[i])
    ensures forall i :: 0 <= i < |names| && Undeclared(metadata, names[i]) && (forall j :: 0 <= j < i ==> !Undeclared(metadata, names[j])) ==>
      LoadAll(names, metadata, data) == Loading(LoadAll(names[..i], metadata, data).lookups, Some(InvalidReference(names[i], DocumentClass)))
  {
    LoadAllSucceeds(names, metadata, data);
    forall i | 0 <= i < |names| && Undeclared(metadata, names[i]) && (forall j :: 0 <= j < i ==> !Undeclared(metadata, names[j]))
      ensures LoadAll(names, metadata, data) == Loading(LoadAll(names[..i], metadata, data).lookups, Some(InvalidReference(names[i], DocumentClass)))
    {
      LoadAllFirstError(names, i, metadata, data);
    }
  }

  // ----- materialization -----

  /** The identity-map key of each row, `(string) $data['_id']`, in row order. */
  function RowKeys(rows: seq<StoredDoc>): (r: seq<string>)
    ensures |r| == |rows| && forall i :: 0 <= i < |rows| ==> r[i] == IdString(rows[i].id)
    ensures forall i, j :: 0 <= i < |rows| && 0 <= j < |rows| ==> (r[i] == r[j] <==> rows[i].id == rows[j].id)
  {
    assert forall a: Id, b: Id :: IdString(a) == IdString(b) ==> a == b by {
      forall a: Id, b: Id | IdString(a) == IdString(b) ensures a == b {
        IdStringInjective(a, b);
      }
    }
    seq(|rows|, i requires 0 <= i < |rows| => IdString(rows[i].id))
  }

  /** The keys of one more row. */
  lemma RowKeysPrefix(rows: seq<StoredDoc>, i: nat)
    requires i < |rows|
    ensures RowKeys(rows)[..i + 1] == RowKeys(rows)[..i] + [IdString(rows[i].id)]
  {
  }

  /** Row `j` is the first row whose key is `k`. */
  predicate FirstRow(rows: seq<StoredDoc>, k: string, j: nat)
  {
    j < |rows| && IdString(rows[j].id) == k && forall m :: 0 <= m < j ==> IdString(rows[m].id) != k
  }

  /** A document built from a row by `setDocumentData`: persisted, unmodified, with the row's id and fields. */
  ghost predicate BuiltFrom(d: Document, row: StoredDoc)
    reads d
  {
    d.id == Some(row.id) && !d.isNew && !d.modified && d.fields == row.fields
  }

  /**
   * What the row loop of `all` has done to the identity map `entries`, which
   * held `before`: every result document is the entry under its key, the
   * old entries are untouched, and each new entry was built from the first
   * row with its key.
   */
  ghost predicate Registered(rows: seq<StoredDoc>, documents: map<string, Document>, firsts: map<string, nat>,
                             entries: map<string, Document>, before: map<string, Document>)
    reads documents.Values
  {
    && (forall k :: k in documents ==> k in entries && entries[k] == documents[k])
    && entries.Keys == before.Keys + documents.Keys
    && (forall k :: k in before ==> entries[k] == before[k])
    && (forall k :: k in documents && k !in before ==>
          k in firsts && FirstRow(rows, k, firsts[k]) && BuiltFrom(documents[k], rows[firsts[k]]))
  }

  /** A row whose key is in the identity map yields the cached instance. */
  lemma CachedRowRegistered(rows: seq<StoredDoc>, documents: map<string, Document>, firsts: map<string, nat>,
                            entries: map<string, Document>, before: map<string, Document>, k: string)
    requires Registered(rows, documents, firsts, entries, before) && k in entries
    ensures Registered(rows, documents[k := entries[k]], firsts, entries, before)
  {
  }

  /** A row with a key seen for the first time yields a new document built from it, filed under the key. */
  lemma NewRowRegistered(rows: seq<StoredDoc>, i: nat, seen: seq<string>, documents: map<string, Document>, firsts: map<string, nat>,
                         entries: map<string, Document>, before: map<string, Document>, d: Document)
    requires i < |rows| && seen == RowKeys(rows)[..i]
    requires Registered(rows, documents, firsts, entries, before)
    requires IdString(rows[i].id) !in entries && IdString(rows[i].id) !in seen
    requires BuiltFrom(d, rows[i])
    ensures Registered(rows, documents[IdString(rows[i].id) := d], firsts[IdString(rows[i].id) := i],
                       entries[IdString(rows[i].id) := d], before)
  {
    var k := IdString(rows[i].id);
    forall m | 0 <= m < i ensures IdString(rows[m].id) != k {
      assert seen[m] == IdString(rows[m].id);
    }
  }

  /** Entries registered from rows keep the identity map coherent. */
  lemma RegisteredKeepsCoherent(rows: seq<StoredDoc>, documents: map<string, Document>, firsts: map<string, nat>,
                                im: IdentityMap, before: map<string, Document>)
    requires Registered(rows, documents, firsts, im.entries, before)
    requires forall k :: k in before ==> before[k].id.Some? && IdString(before[k].id.value) == k && !before[k].isNew
    ensures im.Coherent()
  {
    forall k | k in im.entries
      ensures im.entries[k].id.Some? && IdString(im.entries[k].id.value) == k && !im.entries[k].isNew
    {
      if k !in before {
        assert FirstRow(rows, k, firsts[k]);
      }
    }
  }

  /** The documents of a result in key order. */
  function Ordered(keys: seq<string>, documents: map<string, Document>): seq<Document>
    requires forall i :: 0 <= i < |keys| ==> keys[i] in documents
  {
    seq(|keys|, i requires 0 <= i < |keys| => documents[keys[i]])
  }

  /** The field values of documents, in order. */
  function Data(docs: seq<Document>): seq<map<string, Value>>
    reads docs
  {
    seq(|docs|, i requires 0 <= i < |docs| reads docs => docs[i].fields)
  }

  /** A query on the messages, with the identity map it shares with the repository and the references to eager-load. */
  class Query {
    const identityMap: IdentityMap
    const metadata: Metadata
    const references: seq<string>

    constructor(identityMap: IdentityMap, metadata: Metadata, references: seq<string>)
      ensures this.identityMap == identityMap && this.metadata == metadata && this.references == references
    {
      this.identityMap := identityMap;
      this.metadata := metadata;
      this.references := references;
    }

    /** A document built from a row, filed in the identity map under the row's key. */
    method Register(row: StoredDoc) returns (d: Document)
      modifies identityMap`entries
      ensures fresh(d) && BuiltFrom(d, row)
      ensures identityMap.entries == old(identityMap.entries)[IdString(row.id) := d]
    {
      d := new Document.Loaded(row.id, row.fields);
      identityMap.entries := identityMap.entries[IdString(row.id) := d];
    }

    /**
     * The row loop of `all`: a row whose key is in the identity map gives the
     * cached instance and leaves the entry alone; any other row gives a new
     * document, which is filed in the identity map. The result is keyed by
     * id string in order of first occurrence; `firsts` tells which row built
     * each new document.
     */
    method Materialize(rows: seq<StoredDoc>)
      returns (keys: seq<string>, documents: map<string, Document>, ghost firsts: map<string, nat>)
      modifies identityMap`entries
      ensures keys == Dedup(RowKeys(rows))
      ensures forall k :: k in documents <==> k in keys
      ensures Registered(rows, documents, firsts, identityMap.entries, old(identityMap.entries))
      ensures forall k :: k in documents && k !in old(identityMap.entries) ==> fresh(documents[k])
    {
      keys, documents, firsts := [], map[], map[];
      ghost var seen: seq<string> := [];
      for i := 0 to |rows|
        invariant seen == RowKeys(rows)[..i] && keys == Dedup(seen)
        invariant forall k :: k in documents <==> k in keys
        invariant Registered(rows, documents, firsts, identityMap.entries, old(identityMap.entries))
        invariant forall k :: k in documents && k !in old(identityMap.entries) ==> fresh(documents[k])
      {
        var row := rows[i];
        var k := IdString(row.id);
        RowKeysPrefix(rows, i);
        DedupSnoc(seen, k);
        if k !in documents {
          keys := keys + [k];
        }
        label Step:
        if k in identityMap.entries {
          CachedRowRegistered(rows, documents, firsts, identityMap.entries, old(identityMap.entries), k);
          documents := documents[k := identityMap.entries[k]];
        } else {
          var d := Register(row);
          NewRowRegistered(rows, i, seen, documents, firsts, old@Step(identityMap.entries), old(identityMap.entries), d);
          documents := documents[k := d];
          firsts := firsts[k := i];
        }
        seen := seen + [k];
      }
      assert RowKeys(rows)[..|rows|] == RowKeys(rows);
    }

    /** The id loop of a single reference: the truthy values of `field`, in document order. */
    method CollectOne(docs: seq<Document>, field: string) returns (ids: seq<Value>)
      ensures ids == OneValues(Data(docs), field)
    {
      ids := [];
      for i := 0 to |docs|
        invariant ids == OneValues(Data(docs)[..i], field)
      {
        var v := docs[i].Get(field);
        assert Data(docs)[..i + 1][..i] == Data(docs)[..i];
        if Truthy(v) {
          ids := ids + [v];
        }
      }
      assert Data(docs)[..|docs|] == Data(docs);
    }

    /** The id loops of a list reference: the elements of every truthy array in `field`, in document order. */
    method CollectMany(docs: seq<Document>, field: string) returns (ids: seq<Value>)
      ensures ids == ManyValues(Data(docs), field)
    {
      ids := [];
      for i := 0 to |docs|
        invariant ids == ManyValues(Data(docs)[..i], field)
      {
        var v := docs[i].Get(field);
        assert Data(docs)[..i + 1][..i] == Data(docs)[..i];
        ghost var before := ids;
        if Truthy(v) && v.Array? {
          for j := 0 to |v.elems|
            invariant ids == before + v.elems[..j]
          {
            ids := ids + [v.elems[j]];
          }
          assert v.elems[..|v.elems|] == v.elems;
        }
      }
      assert Data(docs)[..|docs|] == Data(docs);
    }

    /**
     * The reference loop of `all`: for each requested name in order, one
     * `findById` on the target class with the distinct ids collected, if
     * there are any; an undeclared name ends the loop with an error.
     */
    method LoadReferences(docs: seq<Document>) returns (lookups: seq<Lookup>, error: Option<Error>)
      ensures Loading(lookups, error) == LoadAll(references, metadata, Data(docs))
    {
      lookups := [];
      for i := 0 to |references|
        invariant LoadAll(references[..i], metadata, Data(docs)) == Loading(lookups, None)
      {
        var name := references[i];
        LoadAllStep(references, i, metadata, Data(docs));
        if name in metadata.referencesOne {
          var ref := metadata.referencesOne[name];
          var ids := CollectOne(docs, ref.field);
          lookups := lookups + Batch(ref.targetClass, ids);
        } else if name in metadata.referencesMany {
          var ref := metadata.referencesMany[name];
          var ids := CollectMany(docs, ref.field);
          lookups := lookups + Batch(ref.targetClass, ids);
        } else {
          error := Some(InvalidReference(name, DocumentClass));
          LoadAllKeepsError(references, metadata, Data(docs), i + 1);
          return;
        }
      }
      assert references[..|references|] == references;
      error := None;
    }

    /**
     * `all`: the rows the query returns (`rows`, in storage order) become the
     * result documents, keyed by id string in order of first occurrence,
     * through the identity map; then the requested references are
     * eager-loaded. When `error` is set, `all` throws it: the identity-map
     * entries and the lookups made before it stay.
     */
    method All(rows: seq<StoredDoc>)
      returns (keys: seq<string>, documents: map<string, Document>, lookups: seq<Lookup>, error: Option<Error>, ghost firsts: map<string, nat>)
      modifies identityMap`entries
      ensures keys == Dedup(RowKeys(rows))
      ensures forall k :: k in documents <==> k in keys
      ensures Registered(rows, documents, firsts, identityMap.entries, old(identityMap.entries))
      ensures forall k :: k in documents && k !in old(identityMap.entries) ==> fresh(documents[k])
      ensures Loading(lookups, error) == LoadAll(references, metadata, Data(Ordered(keys, documents)))
      ensures old(identityMap.Coherent()) ==> identityMap.Coherent()
    {
      keys, documents, firsts := Materialize(rows);
      var docs := Ordered(keys, documents);
      lookups, error := LoadReferences(docs);
      if old(identityMap.Coherent()) {
        RegisteredKeepsCoherent(rows, documents, firsts, identityMap, old(identityMap.entries));
      }
    }
  }
}

=== FILE: reference_sweep.dfy ===
/**
 * The referential repair sweep of the article repository, as functions over
 * the owner collection's rows. A sweep pages through the rows that have the
 * reference field set, collects the distinct referenced ids of the page, asks
 * the target collection which of them exist, and repairs the rows that point
 * at the others: for a single reference it removes the owner rows, for a
 * multi reference it pulls the missing ids out of the owner's array.
 *
 * `SweepOneFrom` and `SweepManyFrom` follow the loops as they are written;
 * `SweepOneFixedFrom` and `SweepManyFixedFrom` are the corrected loops, whose
 * outcome is proved to be the full repair.
 */
module ReferenceSweep {
  import opened Ids
  import opened Seqs
  import opened Storage
  import opened Wrappers

  /** What a sweep leaves behind: the owner rows and the driver calls it made. */
  datatype SweepResult = SweepResult(docs: seq<StoredDoc>, calls: seq<Call>)

  /** `find([field => ['$exists' => 1]])`: the rows that have the reference field, in natural order. */
  function Owners(docs: seq<StoredDoc>, field: string): (r: seq<StoredDoc>)
    ensures |r| <= |docs|
    ensures forall d :: d in r ==> field in d.fields && d in docs
  {
    if docs == [] then []
    else (if field in docs[0].fields then [docs[0]] else []) + Owners(docs[1..], field)
  }

  function Min(a: int, b: int): int { if a <= b then a else b }

  /** The offset of the page after the `limit` rows at `skip`. */
  function NextPage(skip: nat, limit: nat): nat
  {
    skip + limit
  }

  /** `->limit($limit)->skip($skip)` on the owner rows. */
  function Page(docs: seq<StoredDoc>, field: string, skip: nat, limit: nat): (r: seq<StoredDoc>)
    ensures |r| > 0 ==> skip < |Owners(docs, field)|
    ensures forall i :: 0 <= i < |r| ==>
      skip + i < |Owners(docs, field)| && r[i] == Owners(docs, field)[skip + i]
    ensures skip < |Owners(docs, field)| ==> |r| == Min(limit, |Owners(docs, field)| - skip)
  {
    var owners := Owners(docs, field);
    if skip >= |owners| then [] else owners[skip..Min(skip + limit, |owners|)]
  }

  /** The reference values of a page, one per row. */
  function FieldValues(page: seq<StoredDoc>, field: string): (r: seq<Value>)
    ensures |r| == |page|
    ensures forall i :: 0 <= i < |page| ==> r[i] == FieldOf(page[i], field)
  {
    if page == [] then [] else [FieldOf(page[0], field)] + FieldValues(page[1..], field)
  }

  /** The array elements of a page's multi-reference field, merged (`array_reduce(..., 'array_merge')`). */
  function Flatten(page: seq<StoredDoc>, field: string): (r: seq<Value>)
    ensures |page| == 0 ==> r == []
  {
    if page == [] then []
    else
      var v := FieldOf(page[0], field);
      (if v.Array? then v.elems else []) + Flatten(page[1..], field)
  }

  lemma {:induction false} FlattenContains(page: seq<StoredDoc>, field: string, i: nat, x: Value)
    requires i < |page| && FieldOf(page[i], field).Array? && x in FieldOf(page[i], field).elems
    ensures x in Flatten(page, field)
  {
    if i > 0 {
      FlattenContains(page[1..], field, i - 1, x);
    }
  }

  /** Every element of the merged list comes from the array of some row of the page. */
  lemma {:induction false} FlattenFrom(page: seq<StoredDoc>, field: string, x: Value) returns (i: nat)
    requires x in Flatten(page, field)
    ensures i < |page| && FieldOf(page[i], field).Array? && x in FieldOf(page[i], field).elems
  {
    var v := FieldOf(page[0], field);
    if v.Array? && x in v.elems {
      i := 0;
    } else {
      var k := FlattenFrom(page[1..], field, x);
      i := k + 1;
    }
  }

  /** Whether every row of a page holds an array in the field. */
  predicate ArraysOnly(page: seq<StoredDoc>, field: string)
  {
    forall i :: 0 <= i < |page| ==> FieldOf(page[i], field).Array?
  }

  /**
   * `array_reduce($values, 'array_merge', $carry)` over the page's values.
   * `array_merge` returns null when one of its arguments is not an array;
   * `None` stands for that null, which every later merge keeps.
   */
  function MergeValues(page: seq<StoredDoc>, field: string, carry: Option<seq<Value>>): (r: Option<seq<Value>>)
    ensures carry.None? ==> r.None?
    ensures r.Some? ==> carry.Some? && carry.value <= r.value
    decreases |page|
  {
    if page == [] then carry
    else
      var v := FieldOf(page[0], field);
      var next := if carry.Some? && v.Array? then Some(carry.value + v.elems) else None;
      MergeValues(page[1..], field, next)
  }

  /** Merging only arrays appends their elements in row order; meeting any other value gives null. */
  lemma {:induction false} MergeValuesFlatten(page: seq<StoredDoc>, field: string, acc: seq<Value>)
    ensures MergeValues(page, field, Some(acc)) == if ArraysOnly(page, field) then Some(acc + Flatten(page, field)) else None
    decreases |page|
  {
    if page == [] {
      assert acc + [] == acc;
    } else {
      var v := FieldOf(page[0], field);
      assert ArraysOnly(page, field) <==> v.Array? && ArraysOnly(page[1..], field) by {
        assert forall i :: 0 <= i < |page[1..]| ==> page[1..][i] == page[i + 1];
      }
      if v.Array? {
        MergeValuesFlatten(page[1..], field, acc + v.elems);
        assert Flatten(page, field) == v.elems + Flatten(page[1..], field);
        AppendAssoc(acc, v.elems, Flatten(page[1..], field));
      } else {
        assert MergeValues(page, field, Some(acc)) == MergeValues(page[1..], field, None);
      }
    }
  }

  /**
   * The distinct ids a page of a multi reference yields as PHP computes
   * them: `array_unique` of the merge, where `array_unique(null)` is null
   * and `count(null)` is 0. So a page that holds a non-array value yields
   * no ids, and otherwise the ids are the elements of its arrays
   * (`MergedIdsMembers`).
   */
  function MergedIds(page: seq<StoredDoc>, field: string): (r: seq<Value>)
    ensures Distinct(r)
  {
    match MergeValues(page, field, Some([]))
    case None => []
    case Some(merged) => Dedup(merged)
  }

  /** An id is in a page's merged list exactly when every row holds an array and some row's array holds the id. */
  lemma MergedIdsMembers(page: seq<StoredDoc>, field: string, x: Value)
    ensures x in MergedIds(page, field) <==>
      ArraysOnly(page, field) && exists i :: 0 <= i < |page| && x in FieldOf(page[i], field).elems
  {
    MergeValuesFlatten(page, field, []);
    assert [] + Flatten(page, field) == Flatten(page, field);
    if x in MergedIds(page, field) {
      var i := FlattenFrom(page, field, x);
    }
    if ArraysOnly(page, field) && exists i :: 0 <= i < |page| && x in FieldOf(page[i], field).elems {
      var i :| 0 <= i < |page| && x in FieldOf(page[i], field).elems;
      FlattenContains(page, field, i, x);
    }
  }

  /** Whether a referenced value names a row of the target collection. */
  predicate Exists(v: Value, existing: set<Id>)
  {
    v.ObjectId? && v.id in existing
  }

  /** The target query `find(['_id' => ['$in' => ids]])`: the listed ids that exist. */
  function Found(ids: seq<Value>, existing: set<Id>): (r: seq<Value>)
    ensures forall v :: v in r <==> v in ids && Exists(v, existing)
  {
    if ids == [] then []
    else
      assert forall v :: v in ids <==> v == ids[0] || v in ids[1..];
      (if Exists(ids[0], existing) then [ids[0]] else []) + Found(ids[1..], existing)
  }

  /** `$idsDiff = array_diff($ids, $referenceIds)`: the referenced ids that are missing. */
  function MissingIds(ids: seq<Value>, existing: set<Id>): seq<Value>
  {
    Without(ids, Found(ids, existing))
  }

  /**
   * The missing set is exactly the page's ids minus the existing ones: it is
   * contained in the page's ids, disjoint from the ids found, and holds every
   * page id that was not found.
   */
  lemma MissingIsSetDifference(ids: seq<Value>, existing: set<Id>, v: Value)
    ensures v in MissingIds(ids, existing) <==> v in ids && !Exists(v, existing)
    ensures v in MissingIds(ids, existing) ==> v !in Found(ids, existing)
  {
  }

  /** The distinct ids a page of a single reference yields. */
  function SingleIds(page: seq<StoredDoc>, field: string): seq<Value>
  {
    Dedup(FieldValues(page, field))
  }

  /** The distinct ids a page of a multi reference yields. */
  function ManyIds(page: seq<StoredDoc>, field: string): seq<Value>
  {
    Dedup(Flatten(page, field))
  }

  // ----- facts about removing and pulling -----

  lemma {:induction false} OwnersRemoveWhereIn(docs: seq<StoredDoc>, field: string, values: seq<Value>)
    ensures Owners(RemoveWhereIn(docs, field, values), field)
         == RemoveWhereIn(Owners(docs, field), field, values)
  {
    if docs != [] {
      var d := docs[0];
      var rest := RemoveWhereIn(docs[1..], field, values);
      OwnersRemoveWhereIn(docs[1..], field, values);
      var keep := if FieldIn(d, field, values) then [] else [d];
      assert RemoveWhereIn(docs, field, values) == keep + rest;
      OwnersAppend(keep, rest, field);
      var own := if field in d.fields then [d] else [];
      assert Owners(docs, field) == own + Owners(docs[1..], field);
      RemoveWhereInAppend(own, Owners(docs[1..], field), field, values);
    }
  }

  lemma {:induction false} OwnersAppend(a: seq<StoredDoc>, b: seq<StoredDoc>, field: string)
    ensures Owners(a + b, field) == Owners(a, field) + Owners(b, field)
  {
    if a == [] {
      assert a + b == b;
    } else {
      assert (a + b)[1..] == a[1..] + b;
      OwnersAppend(a[1..], b, field);
      var own := if field in a[0].fields then [a[0]] else [];
      assert Owners(a + b, field) == own + Owners(a[1..] + b, field);
      assert Owners(a, field) == own + Owners(a[1..], field);
    }
  }

  lemma {:induction false} RemoveWhereInAppend(a: seq<StoredDoc>, b: seq<StoredDoc>, field: string, values: seq<Value>)
    ensures RemoveWhereIn(a + b, field, values) == RemoveWhereIn(a, field, values) + RemoveWhereIn(b, field, values)
  {
    if a == [] {
      assert a + b == b;
    } else {
      assert (a + b)[1..] == a[1..] + b;
      RemoveWhereInAppend(a[1..], b, field, values);
      var keep := if FieldIn(a[0], field, values) then [] else [a[0]];
      assert RemoveWhereIn(a + b, field, values) == keep + RemoveWhereIn(a[1..] + b, field, values);
      assert RemoveWhereIn(a, field, values) == keep + RemoveWhereIn(a[1..], field, values);
    }
  }

  /** Removing rows that match shrinks the sequence strictly. */
  lemma {:induction false} RemoveWhereInShrinks(docs: seq<StoredDoc>, field: string, values: seq<Value>, i: nat)
    requires i < |docs| && FieldIn(docs[i], field, values)
    ensures |RemoveWhereIn(docs, field, values)| < |docs|
  {
    if i > 0 {
      RemoveWhereInShrinks(docs[1..], field, values, i - 1);
    }
  }

  /** Rows before `k` that do not match survive a removal in place. */
  lemma {:induction false} RemoveWhereInKeepsPrefix(docs: seq<StoredDoc>, field: string, values: seq<Value>, k: nat)
    requires k <= |docs|
    requires forall i :: 0 <= i < k ==> !FieldIn(docs[i], field, values)
    ensures k <= |RemoveWhereIn(docs, field, values)|
    ensures RemoveWhereIn(docs, field, values)[..k] == docs[..k]
  {
    if k > 0 {
      RemoveWhereInKeepsPrefix(docs[1..], field, values, k - 1);
      var rest := RemoveWhereIn(docs[1..], field, values);
      assert RemoveWhereIn(docs, field, values) == [docs[0]] + rest;
      assert docs[..k] == [docs[0]] + docs[1..][..k - 1];
    }
  }

  lemma {:induction false} OwnersPullIn(docs: seq<StoredDoc>, field: string, values: seq<Value>)
    ensures Owners(PullIn(docs, field, values), field) == PullIn(Owners(docs, field), field, values)
  {
    if docs != [] {
      OwnersPullIn(docs[1..], field, values);
      assert PullIn(docs, field, values)[1..] == PullIn(docs[1..], field, values);
      if field in docs[0].fields {
        assert ([docs[0]] + Owners(docs[1..], field))[1..] == Owners(docs[1..], field);
      }
    }
  }

  // ----- the sweeps as written -----

  /**
   * One single-reference sweep loop as written: read a page, remove the
   * owners of the missing ids, advance `skip` by the page size, stop at the
   * first page that yields no ids. Whatever it removes is an owner of a
   * missing id, it keeps every owner whose reference exists, and it never
   * issues a removal with an empty id list or by an id that names a row.
   */
  function SweepOneFrom(docs: seq<StoredDoc>, field: string, existing: set<Id>, limit: nat, skip: nat): (r: SweepResult)
    requires limit > 0
    ensures forall d :: d in r.docs ==> d in docs
    ensures forall d :: d in docs && !Dangling(d, field, existing) ==> d in r.docs
    ensures forall c :: c in r.calls ==> c.RemoveMatching? && c.field == field && |c.values| > 0
    ensures forall c, v :: c in r.calls && v in c.values ==> !Exists(v, existing)
    decreases |Owners(docs, field)| - skip
  {
    var ids := SingleIds(Page(docs, field, skip, limit), field);
    if |ids| == 0 then SweepResult(docs, [])
    else
      PageNotEmpty(docs, field, skip, limit);
      var diff := MissingIds(ids, existing);
      if |diff| == 0 then
        SweepOneFrom(docs, field, existing, limit, NextPage(skip, limit))
      else
        var next := RemoveWhereIn(docs, field, diff);
        RemovalStep(docs, field, existing, ids, diff);
        MissingAreMissing(ids, existing);
        var rest := SweepOneFrom(next, field, existing, limit, NextPage(skip, limit));
        SweepResult(rest.docs, [RemoveMatching(field, diff)] + rest.calls)
  }

  /** A row is dangling when it has the reference field and the referenced row does not exist. */
  predicate Dangling(d: StoredDoc, field: string, existing: set<Id>)
  {
    field in d.fields && !Exists(d.fields[field], existing)
  }

  /** Only dangling rows match a missing-id list. */
  lemma MissingNeverLive(ids: seq<Value>, existing: set<Id>, diff: seq<Value>)
    requires diff == MissingIds(ids, existing)
    ensures forall d: StoredDoc, field: string :: FieldIn(d, field, diff) ==> Dangling(d, field, existing)
  {
    forall d: StoredDoc, field: string | FieldIn(d, field, diff)
      ensures Dangling(d, field, existing)
    {
      MissingIsSetDifference(ids, existing, d.fields[field]);
    }
  }

  /** A page that yields an id is a page inside the owner rows. */
  lemma PageNotEmpty(docs: seq<StoredDoc>, field: string, skip: nat, limit: nat)
    ensures |SingleIds(Page(docs, field, skip, limit), field)| > 0 ==> skip < |Owners(docs, field)|
    ensures |ManyIds(Page(docs, field, skip, limit), field)| > 0 ==> skip < |Owners(docs, field)|
    ensures |MergedIds(Page(docs, field, skip, limit), field)| > 0 ==> skip < |Owners(docs, field)|
  {
  }

  /** What one removal of the missing ids does to the owner rows. */
  lemma RemovalStep(docs: seq<StoredDoc>, field: string, existing: set<Id>, ids: seq<Value>, diff: seq<Value>)
    requires diff == MissingIds(ids, existing)
    ensures |Owners(RemoveWhereIn(docs, field, diff), field)| <= |Owners(docs, field)|
    ensures forall d :: d in docs && !Dangling(d, field, existing) ==> d in RemoveWhereIn(docs, field, diff)
    ensures forall d :: d in RemoveWhereIn(docs, field, diff) ==> d in docs
  {
    OwnersRemoveWhereIn(docs, field, diff);
    MissingNeverLive(ids, existing, diff);
    RemoveWhereInMembers(docs, field, diff);
  }

  /** Same rows, same fields: a pull changes array contents only. */
  predicate SameShape(a: seq<StoredDoc>, b: seq<StoredDoc>)
  {
    |a| == |b| && forall i :: 0 <= i < |a| ==> a[i].id == b[i].id && a[i].fields.Keys == b[i].fields.Keys
  }

  lemma PullStep(docs: seq<StoredDoc>, field: string, diff: seq<Value>, r: seq<StoredDoc>)
    requires SameShape(PullIn(docs, field, diff), r)
    ensures |Owners(PullIn(docs, field, diff), field)| == |Owners(docs, field)|
    ensures SameShape(docs, r)
  {
    OwnersPullIn(docs, field, diff);
  }

  /**
   * The multi-reference sweep loop as written: pull the missing ids out of
   * every row's array, advance `skip` by the page size, stop at the first
   * page that yields no ids, which includes a page holding a non-array
   * value. No row is removed and no field disappears, no pull is issued
   * with an empty id list, only ids that name no row are pulled, and so
   * what a complete repair would leave is unchanged.
   */
  function SweepManyFrom(docs: seq<StoredDoc>, field: string, existing: set<Id>, limit: nat, skip: nat): (r: SweepResult)
    requires limit > 0
    ensures SameShape(docs, r.docs)
    ensures forall c :: c in r.calls ==> c.PullMatching? && c.field == field && |c.values| > 0
    ensures forall c, v :: c in r.calls && v in c.values ==> !Exists(v, existing)
    ensures Prune(r.docs, field, existing) == Prune(docs, field, existing)
    decreases |Owners(docs, field)| - skip
  {
    var ids := MergedIds(Page(docs, field, skip, limit), field);
    if |ids| == 0 then SweepResult(docs, [])
    else
      PageNotEmpty(docs, field, skip, limit);
      var diff := MissingIds(ids, existing);
      if |diff| == 0 then
        SweepManyFrom(docs, field, existing, limit, NextPage(skip, limit))
      else
        OwnersPullIn(docs, field, diff);
        MissingAreMissing(ids, existing);
        PrunePullIn(docs, field, existing, diff);
        var rest := SweepManyFrom(PullIn(docs, field, diff), field, existing, limit, NextPage(skip, limit));
        PullStep(docs, field, diff, rest.docs);
        SweepResult(rest.docs, [PullMatching(field, diff)] + rest.calls)
  }

  // ----- full repair: what a sweep should leave -----

  /** The owner rows of `docs` whose reference exists, with every other row. */
  function KeepLive(docs: seq<StoredDoc>, field: string, existing: set<Id>): (r: seq<StoredDoc>)
    ensures |r| <= |docs|
  {
    if docs == [] then []
    else (if Dangling(docs[0], field, existing) then [] else [docs[0]]) + KeepLive(docs[1..], field, existing)
  }

  lemma {:induction false} KeepLiveMembers(docs: seq<StoredDoc>, field: string, existing: set<Id>)
    ensures forall d :: d in KeepLive(docs, field, existing) <==> d in docs && !Dangling(d, field, existing)
  {
    if docs != [] {
      KeepLiveMembers(docs[1..], field, existing);
      assert forall d :: d in docs <==> d == docs[0] || d in docs[1..];
    }
  }

  /** With no dangling owner there is nothing to remove. */
  lemma {:induction false} KeepLiveIdentity(docs: seq<StoredDoc>, field: string, existing: set<Id>)
    requires forall d :: d in Owners(docs, field) ==> !Dangling(d, field, existing)
    ensures KeepLive(docs, field, existing) == docs
  {
    if docs != [] {
      var own := if field in docs[0].fields then [docs[0]] else [];
      assert Owners(docs, field) == own + Owners(docs[1..], field);
      KeepLiveIdentity(docs[1..], field, existing);
      assert docs == [docs[0]] + docs[1..];
    }
  }

  /** Removing owners of missing ids only removes rows a full repair removes anyway. */
  lemma {:induction false} KeepLiveRemoveWhereIn(docs: seq<StoredDoc>, field: string, existing: set<Id>, values: seq<Value>)
    requires forall v :: v in values ==> !Exists(v, existing)
    ensures KeepLive(RemoveWhereIn(docs, field, values), field, existing) == KeepLive(docs, field, existing)
  {
    if docs != [] {
      var d := docs[0];
      KeepLiveRemoveWhereIn(docs[1..], field, existing, values);
      var rest := RemoveWhereIn(docs[1..], field, values);
      var head := if Dangling(d, field, existing) then [] else [d];
      assert KeepLive(docs, field, existing) == head + KeepLive(docs[1..], field, existing);
      if FieldIn(d, field, values) {
        assert d.fields[field] in values;
        assert RemoveWhereIn(docs, field, values) == rest;
      } else {
        assert RemoveWhereIn(docs, field, values) == [d] + rest;
        assert ([d] + rest)[1..] == rest;
        assert KeepLive([d] + rest, field, existing) == head + KeepLive(rest, field, existing);
      }
    }
  }

  /** The owners before `k` all point at existing rows. */
  predicate LiveUpTo(owners: seq<StoredDoc>, field: string, existing: set<Id>, k: nat)
  {
    forall i :: 0 <= i < |owners| && i < k ==> !Dangling(owners[i], field, existing)
  }

  /** A page whose missing list is empty holds only live owners. */
  lemma PageLive(docs: seq<StoredDoc>, field: string, existing: set<Id>, skip: nat, limit: nat)
    requires |MissingIds(SingleIds(Page(docs, field, skip, limit), field), existing)| == 0
    ensures LiveUpTo(Owners(docs, field), field, existing, skip) ==> LiveUpTo(Owners(docs, field), field, existing, NextPage(skip, limit))
  {
    var owners := Owners(docs, field);
    var page := Page(docs, field, skip, limit);
    var ids := SingleIds(page, field);
    if !LiveUpTo(owners, field, existing, skip) {
      return;
    }
    forall i | 0 <= i < |owners| && i < skip + limit
      ensures !Dangling(owners[i], field, existing)
    {
      if i >= skip {
        assert owners[i] in owners;
        assert page[i - skip] == owners[i];
        var v := FieldValues(page, field)[i - skip];
        assert v in ids;
        MissingIsSetDifference(ids, existing, v);
      }
    }
  }

  /** Removing the owners of a non-empty missing list shrinks the owner rows. */
  lemma RemovalShrinksOwners(docs: seq<StoredDoc>, field: string, existing: set<Id>, skip: nat, limit: nat)
    requires |MissingIds(SingleIds(Page(docs, field, skip, limit), field), existing)| > 0
    ensures |Owners(RemoveWhereIn(docs, field, MissingIds(SingleIds(Page(docs, field, skip, limit), field), existing)), field)|
          < |Owners(docs, field)|
  {
    var owners := Owners(docs, field);
    var page := Page(docs, field, skip, limit);
    var ids := SingleIds(page, field);
    var diff := MissingIds(ids, existing);
    var v := diff[0];
    MissingIsSetDifference(ids, existing, v);
    var i := FieldValueIndex(page, field, v);
    assert page[i] == owners[skip + i];
    assert page[i] in owners;
    assert FieldIn(owners[skip + i], field, diff);
    RemoveWhereInShrinks(owners, field, diff, skip + i);
    OwnersRemoveWhereIn(docs, field, diff);
  }

  /** Where a value of a page comes from. */
  lemma FieldValueIndex(page: seq<StoredDoc>, field: string, v: Value) returns (i: nat)
    requires v in FieldValues(page, field)
    ensures i < |page| && FieldOf(page[i], field) == v
  {
    var vals := FieldValues(page, field);
    i :| 0 <= i < |vals| && vals[i] == v;
  }

  /** A page that yields no id lies past the owners, which are then all live: nothing is left to remove. */
  lemma EmptyPageRepaired(docs: seq<StoredDoc>, field: string, existing: set<Id>, limit: nat, skip: nat)
    requires limit > 0
    requires |SingleIds(Page(docs, field, skip, limit), field)| == 0
    ensures LiveUpTo(Owners(docs, field), field, existing, skip) ==> KeepLive(docs, field, existing) == docs
  {
    if !LiveUpTo(Owners(docs, field), field, existing, skip) {
      return;
    }
    var owners := Owners(docs, field);
    assert skip >= |owners|;
    forall d | d in owners ensures !Dangling(d, field, existing) {
      var i :| 0 <= i < |owners| && owners[i] == d;
    }
    KeepLiveIdentity(docs, field, existing);
  }

  /** A removal keeps the live owner prefix in place and does not change what a full repair keeps. */
  lemma RemovalKeepsLivePrefix(docs: seq<StoredDoc>, field: string, existing: set<Id>, skip: nat, diff: seq<Value>)
    requires skip <= |Owners(docs, field)|
    requires forall v :: v in diff ==> !Exists(v, existing)
    ensures LiveUpTo(Owners(docs, field), field, existing, skip) ==> LiveUpTo(Owners(RemoveWhereIn(docs, field, diff), field), field, existing, skip)
    ensures KeepLive(RemoveWhereIn(docs, field, diff), field, existing) == KeepLive(docs, field, existing)
  {
    KeepLiveRemoveWhereIn(docs, field, existing, diff);
    if !LiveUpTo(Owners(docs, field), field, existing, skip) {
      return;
    }
    var owners := Owners(docs, field);
    KeepLiveRemoveWhereIn(docs, field, existing, diff);
    forall i | 0 <= i < skip ensures !FieldIn(owners[i], field, diff) {
      assert owners[i] in owners;
    }
    RemoveWhereInKeepsPrefix(owners, field, diff, skip);
    OwnersRemoveWhereIn(docs, field, diff);
    var after := Owners(RemoveWhereIn(docs, field, diff), field);
    assert forall i :: 0 <= i < skip ==> after[i] == after[..skip][i] == owners[..skip][i];
  }

  /** Every id on the missing list names no existing row. */
  lemma MissingAreMissing(ids: seq<Value>, existing: set<Id>)
    ensures forall v :: v in MissingIds(ids, existing) ==> !Exists(v, existing)
  {
  }

  /**
   * The single-reference loop corrected: after a removal the same page is
   * read again (the removed rows have shifted the later rows into it), and
   * `skip` advances only past a page with nothing missing.
   */
  function SweepOneFixedFrom(docs: seq<StoredDoc>, field: string, existing: set<Id>, limit: nat, skip: nat): (r: SweepResult)
    requires limit > 0
    ensures LiveUpTo(Owners(docs, field), field, existing, skip) ==> r.docs == KeepLive(docs, field, existing)
    decreases |Owners(docs, field)| - skip
  {
    var ids := SingleIds(Page(docs, field, skip, limit), field);
    if |ids| == 0 then
      EmptyPageRepaired(docs, field, existing, limit, skip);
      SweepResult(docs, [])
    else
      PageNotEmpty(docs, field, skip, limit);
      var diff := MissingIds(ids, existing);
      if |diff| == 0 then
        PageLive(docs, field, existing, skip, limit);
        SweepOneFixedFrom(docs, field, existing, limit, NextPage(skip, limit))
      else
        RemovalShrinksOwners(docs, field, existing, skip, limit);
        MissingAreMissing(ids, existing);
        RemovalKeepsLivePrefix(docs, field, existing, skip, diff);
        var rest := SweepOneFixedFrom(RemoveWhereIn(docs, field, diff), field, existing, limit, skip);
        SweepResult(rest.docs, [RemoveMatching(field, diff)] + rest.calls)
  }

  /** The calls `done`, then what `rest` does: a sweep that has already made the calls `done`. */
  function Then(done: seq<Call>, rest: SweepResult): (r: SweepResult)
    ensures r.docs == rest.docs && |r.calls| == |done| + |rest.calls|
    ensures r.calls[..|done|] == done && r.calls[|done|..] == rest.calls
  {
    SweepResult(rest.docs, done + rest.calls)
  }

  /**
   * One round of the corrected single-reference loop: a page without ids
   * ends the sweep, a page without missing ids moves `skip` on, and a
   * removal reads the same page again over fewer owners.
   */
  lemma SweepOneRound(docs: seq<StoredDoc>, field: string, existing: set<Id>, limit: nat, skip: nat,
                      done: seq<Call>, r: SweepResult)
    requires limit > 0
    requires Then(done, SweepOneFixedFrom(docs, field, existing, limit, skip)) == r
    ensures var ids := SingleIds(Page(docs, field, skip, limit), field);
      var diff := MissingIds(ids, existing);
      var next := RemoveWhereIn(docs, field, diff);
      && (|ids| == 0 ==> docs == r.docs && done == r.calls)
      && (|ids| > 0 ==> skip < |Owners(docs, field)|)
      && (|ids| > 0 && |diff| == 0 ==> Then(done, SweepOneFixedFrom(docs, field, existing, limit, NextPage(skip, limit))) == r)
      && (|ids| > 0 && |diff| > 0 ==>
            && |Owners(next, field)| < |Owners(docs, field)|
            && Then(done + [RemoveMatching(field, diff)], SweepOneFixedFrom(next, field, existing, limit, skip)) == r)
  {
    var ids := SingleIds(Page(docs, field, skip, limit), field);
    var diff := MissingIds(ids, existing);
    PageNotEmpty(docs, field, skip, limit);
    if |ids| == 0 {
      assert done + [] == done;
    } else if |diff| > 0 {
      RemovalShrinksOwners(docs, field, existing, skip, limit);
      var rest := SweepOneFixedFrom(RemoveWhereIn(docs, field, diff), field, existing, limit, skip);
      AppendAssoc(done, [RemoveMatching(field, diff)], rest.calls);
    }
  }

  /** The corrected single-reference sweep removes exactly the owners whose reference is missing. */
  lemma SweepOneFixedRepairs(docs: seq<StoredDoc>, field: string, existing: set<Id>, limit: nat)
    requires limit > 0
    ensures var r := SweepOneFixedFrom(docs, field, existing, limit, 0);
      && r.docs == KeepLive(docs, field, existing)
      && (forall d :: d in r.docs <==> d in docs && !Dangling(d, field, existing))
  {
    KeepLiveMembers(docs, field, existing);
  }

  // ----- full repair of a multi reference, and the corrected loop -----

  /** An owner row's array after a full repair: only the elements that name an existing row. */
  function PruneOne(d: StoredDoc, field: string, existing: set<Id>): StoredDoc
  {
    if field in d.fields && d.fields[field].Array? then
      StoredDoc(d.id, d.fields[field := Array(Found(d.fields[field].elems, existing))])
    else d
  }

  /** Every row after a full repair of a multi reference. */
  function Prune(docs: seq<StoredDoc>, field: string, existing: set<Id>): (r: seq<StoredDoc>)
    ensures |r| == |docs|
    ensures forall i :: 0 <= i < |docs| ==> r[i] == PruneOne(docs[i], field, existing)
  {
    if docs == [] then [] else [PruneOne(docs[0], field, existing)] + Prune(docs[1..], field, existing)
  }

  /** A row whose multi reference names only existing rows. */
  predicate Clean(d: StoredDoc, field: string, existing: set<Id>)
  {
    FieldOf(d, field).Array? ==> forall x :: x in FieldOf(d, field).elems ==> Exists(x, existing)
  }

  /** The owners before `k` are clean. */
  predicate CleanUpTo(owners: seq<StoredDoc>, field: string, existing: set<Id>, k: nat)
  {
    forall i :: 0 <= i < |owners| && i < k ==> Clean(owners[i], field, existing)
  }

  lemma {:induction false} FoundAll(a: seq<Value>, existing: set<Id>)
    requires forall x :: x in a ==> Exists(x, existing)
    ensures Found(a, existing) == a
  {
    if a != [] {
      assert forall x :: x in a[1..] ==> x in a;
      FoundAll(a[1..], existing);
      assert a == [a[0]] + a[1..];
    }
  }

  /** Pulling ids that name no row, then repairing, is the same as repairing. */
  lemma {:induction false} FoundWithout(a: seq<Value>, b: seq<Value>, existing: set<Id>)
    requires forall v :: v in b ==> !Exists(v, existing)
    ensures Found(Without(a, b), existing) == Found(a, existing)
  {
    if a != [] {
      FoundWithout(a[1..], b, existing);
      var w := Without(a[1..], b);
      assert Found(a, existing) == (if Exists(a[0], existing) then [a[0]] else []) + Found(a[1..], existing);
      if a[0] in b {
        assert Without(a, b) == w;
      } else {
        assert Without(a, b) == [a[0]] + w;
        assert ([a[0]] + w)[1..] == w;
        assert Found([a[0]] + w, existing) == (if Exists(a[0], existing) then [a[0]] else []) + Found(w, existing);
      }
    }
  }

  lemma PruneOnePullOne(d: StoredDoc, field: string, existing: set<Id>, diff: seq<Value>)
    requires forall v :: v in diff ==> !Exists(v, existing)
    ensures PruneOne(PullOne(d, field, diff), field, existing) == PruneOne(d, field, existing)
  {
    if field in d.fields && d.fields[field].Array? {
      FoundWithout(d.fields[field].elems, diff, existing);
    }
  }

  lemma PruneOneClean(d: StoredDoc, field: string, existing: set<Id>)
    requires Clean(d, field, existing)
    ensures PruneOne(d, field, existing) == d
  {
    if field in d.fields && d.fields[field].Array? {
      FoundAll(d.fields[field].elems, existing);
      assert d.fields[field := d.fields[field]] == d.fields;
    }
  }

  /** Rows that carry the field are owners. */
  lemma {:induction false} OwnersComplete(docs: seq<StoredDoc>, field: string, d: StoredDoc)
    requires d in docs && field in d.fields
    ensures d in Owners(docs, field)
  {
    if docs[0] != d {
      OwnersComplete(docs[1..], field, d);
    }
  }

  /** Every array element of a page row is either on the missing list or names an existing row. */
  lemma PageElementAccounted(docs: seq<StoredDoc>, field: string, existing: set<Id>, skip: nat, limit: nat, i: nat, x: Value)
    requires skip <= i < skip + limit && i < |Owners(docs, field)|
    requires FieldOf(Owners(docs, field)[i], field).Array? && x in FieldOf(Owners(docs, field)[i], field).elems
    ensures x in MissingIds(ManyIds(Page(docs, field, skip, limit), field), existing) || Exists(x, existing)
  {
    var page := Page(docs, field, skip, limit);
    var k := PageRow(docs, field, skip, limit, i);
    FlattenContains(page, field, k, x);
    MissingIsSetDifference(ManyIds(page, field), existing, x);
  }

  /** Where owner row `i` sits in the page at `skip`, when the page covers it. */
  lemma PageRow(docs: seq<StoredDoc>, field: string, skip: nat, limit: nat, i: nat) returns (k: nat)
    requires skip <= i < skip + limit && i < |Owners(docs, field)|
    ensures k == i - skip && k < |Page(docs, field, skip, limit)|
    ensures Page(docs, field, skip, limit)[k] == Owners(docs, field)[i]
  {
    k := i - skip;
    assert skip + k == i;
  }

  /** A page with nothing missing holds only clean owners. */
  lemma ManyPageClean(docs: seq<StoredDoc>, field: string, existing: set<Id>, skip: nat, limit: nat)
    requires |MissingIds(ManyIds(Page(docs, field, skip, limit), field), existing)| == 0
    ensures CleanUpTo(Owners(docs, field), field, existing, skip) ==> CleanUpTo(Owners(docs, field), field, existing, NextPage(skip, limit))
  {
    var owners := Owners(docs, field);
    if !CleanUpTo(owners, field, existing, skip) {
      return;
    }
    forall i | skip <= i < |owners| && i < skip + limit
      ensures Clean(owners[i], field, existing)
    {
      forall x | FieldOf(owners[i], field).Array? && x in FieldOf(owners[i], field).elems
        ensures Exists(x, existing)
      {
        PageElementAccounted(docs, field, existing, skip, limit, i, x);
      }
    }
  }

  /** Pulling ids that name no row leaves the repair target unchanged. */
  lemma PrunePullIn(docs: seq<StoredDoc>, field: string, existing: set<Id>, diff: seq<Value>)
    requires forall v :: v in diff ==> !Exists(v, existing)
    ensures Prune(PullIn(docs, field, diff), field, existing) == Prune(docs, field, existing)
  {
    forall i | 0 <= i < |docs|
      ensures Prune(PullIn(docs, field, diff), field, existing)[i] == Prune(docs, field, existing)[i]
    {
      PruneOnePullOne(docs[i], field, existing, diff);
    }
  }

  /** A pulled owner keeps only elements it had and none from the pulled list. */
  lemma PulledElement(d: StoredDoc, field: string, diff: seq<Value>, x: Value)
    requires FieldOf(PullOne(d, field, diff), field).Array? && x in FieldOf(PullOne(d, field, diff), field).elems
    ensures FieldOf(d, field).Array? && x in FieldOf(d, field).elems && x !in diff
  {
  }

  /** Pulling a page's missing ids cleans the page and keeps the owners, the clean prefix and the repair target. */
  lemma ManyPullStep(docs: seq<StoredDoc>, field: string, existing: set<Id>, skip: nat, limit: nat)
    ensures var diff := MissingIds(ManyIds(Page(docs, field, skip, limit), field), existing);
      && |Owners(PullIn(docs, field, diff), field)| == |Owners(docs, field)|
      && Prune(PullIn(docs, field, diff), field, existing) == Prune(docs, field, existing)
      && (CleanUpTo(Owners(docs, field), field, existing, skip) ==>
          CleanUpTo(Owners(PullIn(docs, field, diff), field), field, existing, NextPage(skip, limit)))
  {
    var diff := MissingIds(ManyIds(Page(docs, field, skip, limit), field), existing);
    var owners := Owners(docs, field);
    OwnersPullIn(docs, field, diff);
    MissingAreMissing(ManyIds(Page(docs, field, skip, limit), field), existing);
    PrunePullIn(docs, field, existing, diff);
    if CleanUpTo(owners, field, existing, skip) {
      var after := Owners(PullIn(docs, field, diff), field);
      forall i | 0 <= i < |after| && i < skip + limit
        ensures Clean(after[i], field, existing)
      {
        forall x | FieldOf(after[i], field).Array? && x in FieldOf(after[i], field).elems
          ensures Exists(x, existing)
        {
          PulledElement(owners[i], field, diff, x);
          if i >= skip {
            PageElementAccounted(docs, field, existing, skip, limit, i, x);
          }
        }
      }
    }
  }

  /** An empty page lies past the owners, which are then all clean: the repair has nothing left to do. */
  lemma ManyEmptyPage(docs: seq<StoredDoc>, field: string, existing: set<Id>, skip: nat, limit: nat)
    requires limit > 0 && |Page(docs, field, skip, limit)| == 0
    ensures CleanUpTo(Owners(docs, field), field, existing, skip) ==> Prune(docs, field, existing) == docs
  {
    var owners := Owners(docs, field);
    if !CleanUpTo(owners, field, existing, skip) {
      return;
    }
    forall i | 0 <= i < |docs| ensures Prune(docs, field, existing)[i] == docs[i] {
      if field in docs[i].fields {
        OwnersComplete(docs, field, docs[i]);
        var j :| 0 <= j < |owners| && owners[j] == docs[i];
        PruneOneClean(docs[i], field, existing);
      }
    }
  }

  /**
   * The multi-reference loop corrected: it stops at the first empty page
   * instead of the first page that yields no ids, so owners whose arrays are
   * empty no longer end the sweep early.
   */
  function SweepManyFixedFrom(docs: seq<StoredDoc>, field: string, existing: set<Id>, limit: nat, skip: nat): (r: SweepResult)
    requires limit > 0
    ensures CleanUpTo(Owners(docs, field), field, existing, skip) ==> r.docs == Prune(docs, field, existing)
    decreases |Owners(docs, field)| - skip
  {
    var page := Page(docs, field, skip, limit);
    if |page| == 0 then
      ManyEmptyPage(docs, field, existing, skip, limit);
      SweepResult(docs, [])
    else
      var diff := MissingIds(ManyIds(page, field), existing);
      if |diff| == 0 then
        ManyPageClean(docs, field, existing, skip, limit);
        SweepManyFixedFrom(docs, field, existing, limit, NextPage(skip, limit))
      else
        ManyPullStep(docs, field, existing, skip, limit);
        var rest := SweepManyFixedFrom(PullIn(docs, field, diff), field, existing, limit, NextPage(skip, limit));
        SweepResult(rest.docs, [PullMatching(field, diff)] + rest.calls)
  }

  /**
   * One round of the corrected multi-reference loop: an empty page ends the
   * sweep; otherwise the missing ids, if any, are pulled, which keeps the
   * owners, and `skip` moves on.
   */
  lemma SweepManyRound(docs: seq<StoredDoc>, field: string, existing: set<Id>, limit: nat, skip: nat,
                       done: seq<Call>, r: SweepResult)
    requires limit > 0
    requires Then(done, SweepManyFixedFrom(docs, field, existing, limit, skip)) == r
    ensures var page := Page(docs, field, skip, limit);
      var diff := MissingIds(ManyIds(page, field), existing);
      var next := PullIn(docs, field, diff);
      && (|page| == 0 ==> docs == r.docs && done == r.calls)
      && (|page| > 0 ==> skip < |Owners(docs, field)|)
      && (|page| > 0 && |diff| == 0 ==> Then(done, SweepManyFixedFrom(docs, field, existing, limit, NextPage(skip, limit))) == r)
      && (|page| > 0 && |diff| > 0 ==>
            && |Owners(next, field)| == |Owners(docs, field)|
            && Then(done + [PullMatching(field, diff)], SweepManyFixedFrom(next, field, existing, limit, NextPage(skip, limit))) == r)
  {
    var page := Page(docs, field, skip, limit);
    var diff := MissingIds(ManyIds(page, field), existing);
    OwnersPullIn(docs, field, diff);
    if |page| == 0 {
      assert done + [] == done;
    } else if |diff| > 0 {
      var rest := SweepManyFixedFrom(PullIn(docs, field, diff), field, existing, limit, NextPage(skip, limit));
      AppendAssoc(done, [PullMatching(field, diff)], rest.calls);
    }
  }

  /** What a full repair leaves: ids and fields stay, each owner's array keeps exactly its existing elements. */
  lemma PruneMeaning(docs: seq<StoredDoc>, field: string, existing: set<Id>)
    ensures var r := Prune(docs, field, existing);
      && (forall i :: 0 <= i < |docs| ==> r[i].id == docs[i].id && r[i].fields.Keys == docs[i].fields.Keys)
      && (forall i, x :: 0 <= i < |docs| && FieldOf(docs[i], field).Array? ==>
            FieldOf(r[i], field).Array? &&
            (x in FieldOf(r[i], field).elems <==> x in FieldOf(docs[i], field).elems && Exists(x, existing)))
  {
    var r := Prune(docs, field, existing);
    forall i | 0 <= i < |docs| && FieldOf(docs[i], field).Array?
      ensures FieldOf(r[i], field) == Array(Found(FieldOf(docs[i], field).elems, existing))
    {
    }
  }

  /**
   * The multi-reference loop as written never pulls an element that names an
   * existing row: each such element is still in its row's array afterwards.
   */
  lemma SweepManyFromKeepsExisting(docs: seq<StoredDoc>, field: string, existing: set<Id>, limit: nat, i: nat, x: Value)
    requires limit > 0 && i < |docs|
    requires FieldOf(docs[i], field).Array? && x in FieldOf(docs[i], field).elems && Exists(x, existing)
    ensures var r := SweepManyFrom(docs, field, existing, limit, 0).docs;
      i < |r| && FieldOf(r[i], field).Array? && x in FieldOf(r[i], field).elems
  {
    var r := SweepManyFrom(docs, field, existing, limit, 0).docs;
    PruneMeaning(docs, field, existing);
    PruneMeaning(r, field, existing);
    assert |Prune(r, field, existing)| == |r|;
    assert Prune(r, field, existing)[i] == PruneOne(r[i], field, existing);
  }

  /**
   * The corrected multi-reference sweep repairs every row: ids and fields
   * stay, and each owner's array keeps exactly its elements that name an
   * existing row, in order.
   */
  lemma SweepManyFixedRepairs(docs: seq<StoredDoc>, field: string, existing: set<Id>, limit: nat)
    requires limit > 0
    ensures SweepManyFixedFrom(docs, field, existing, limit, 0).docs == Prune(docs, field, existing)
  {
  }

  // ----- the whole repair -----

  /**
   * The three corrected sweeps of `fixMissingReferences` in source order:
   * `author` against the authors, `information` against the article
   * informations, then `categories` against the categories.
   */
  function RepairAll(docs: seq<StoredDoc>, authors: set<Id>, informations: set<Id>, categories: set<Id>, limit: nat): (r: SweepResult)
    requires limit > 0
  {
    var a := SweepOneFixedFrom(docs, "author", authors, limit, 0);
    var b := SweepOneFixedFrom(a.docs, "information", informations, limit, 0);
    var c := SweepManyFixedFrom(b.docs, "categories", categories, limit, 0);
    SweepResult(c.docs, a.calls + b.calls + c.calls)
  }

  /** Pruning the category lists leaves a row's single references as they were and its list clean. */
  lemma PrunedRow(b: seq<StoredDoc>, authors: set<Id>, informations: set<Id>, categories: set<Id>, i: nat)
    requires i < |b| && !Dangling(b[i], "author", authors) && !Dangling(b[i], "information", informations)
    ensures var d := Prune(b, "categories", categories)[i];
      !Dangling(d, "author", authors) && !Dangling(d, "information", informations) && Clean(d, "categories", categories)
  {
    var d := Prune(b, "categories", categories)[i];
    assert d == PruneOne(b[i], "categories", categories);
    if FieldOf(b[i], "categories").Array? {
      assert FieldOf(d, "categories") == Array(Found(FieldOf(b[i], "categories").elems, categories));
    }
  }

  /**
   * After the whole repair no row points at a missing author or article
   * information, no category list names a missing category, and a row
   * survives exactly when both its single references are live.
   */
  lemma RepairAllComplete(docs: seq<StoredDoc>, authors: set<Id>, informations: set<Id>, categories: set<Id>, limit: nat)
    requires limit > 0
    ensures var r := RepairAll(docs, authors, informations, categories, limit).docs;
      && r == Prune(KeepLive(KeepLive(docs, "author", authors), "information", informations), "categories", categories)
      && (forall d :: d in r ==> !Dangling(d, "author", authors) && !Dangling(d, "information", informations) && Clean(d, "categories", categories))
  {
    var a := KeepLive(docs, "author", authors);
    var b := KeepLive(a, "information", informations);
    SweepOneFixedRepairs(docs, "author", authors, limit);
    SweepOneFixedRepairs(a, "information", informations, limit);
    SweepManyFixedRepairs(b, "categories", categories, limit);
    KeepLiveMembers(docs, "author", authors);
    KeepLiveMembers(a, "information", informations);
    var r := Prune(b, "categories", categories);
    forall d | d in r
      ensures !Dangling(d, "author", authors) && !Dangling(d, "information", informations) && Clean(d, "categories", categories)
    {
      var i :| 0 <= i < |r| && r[i] == d;
      assert b[i] in b && b[i] in a;
      PrunedRow(b, authors, informations, categories, i);
    }
  }

  // ----- the two loops as written, on inputs that show their gaps -----

  const IdX: Id := Id([1, 0, 0, 0, 0, 0, 0, 0, 0, 0, 0, 0])
  const IdY: Id := Id([2, 0, 0, 0, 0, 0, 0, 0, 0, 0, 0, 0])
  const IdA: Id := Id([3, 0, 0, 0, 0, 0, 0, 0, 0, 0, 0, 0])
  const IdB: Id := Id([4, 0, 0, 0, 0, 0, 0, 0, 0, 0, 0, 0])

  /**
   * Two articles whose authors are both gone, one row per page: the first
   * page removes article A, article B shifts to position 0, the loop reads
   * position 1, finds nothing and stops. B survives although its author is
   * missing; the corrected loop removes both.
   */
  lemma SweepOneSkipsShiftedRow()
    ensures var docs := [StoredDoc(IdA, map["author" := ObjectId(IdX)]), StoredDoc(IdB, map["author" := ObjectId(IdY)])];
      && Dangling(docs[1], "author", {})
      && SweepOneFrom(docs, "author", {}, 1, 0).docs == [docs[1]]
      && SweepOneFixedFrom(docs, "author", {}, 1, 0).docs == []
  {
    var a := StoredDoc(IdA, map["author" := ObjectId(IdX)]);
    var b := StoredDoc(IdB, map["author" := ObjectId(IdY)]);
    var docs := [a, b];
    assert Owners(docs, "author") == docs by {
      assert Owners([b], "author") == [b];
    }
    assert Page(docs, "author", 0, 1) == [a];
    assert FieldValues([a], "author") == [ObjectId(IdX)];
    assert SingleIds([a], "author") == [ObjectId(IdX)];
    assert Found([ObjectId(IdX)], {}) == [];
    assert MissingIds([ObjectId(IdX)], {}) == [ObjectId(IdX)];
    assert RemoveWhereIn(docs, "author", [ObjectId(IdX)]) == [b] by {
      assert RemoveWhereIn([b], "author", [ObjectId(IdX)]) == [b];
    }
    assert Owners([b], "author") == [b];
    assert Page([b], "author", 1, 1) == [];
    assert SweepOneFrom([b], "author", {}, 1, 1).docs == [b];
    SweepOneFixedRepairs(docs, "author", {}, 1);
    assert KeepLive([b], "author", {}) == [];
    assert KeepLive(docs, "author", {}) == [];
  }

  /**
   * An article with an empty category list ahead of one whose only category
   * is gone, one row per page: the first page yields no ids, so the loop
   * stops and the second article keeps its dangling category; the corrected
   * loop pulls it.
   */
  lemma SweepManyStopsAtEmptyArrays()
    ensures var docs := [StoredDoc(IdA, map["categories" := Array([])]), StoredDoc(IdB, map["categories" := Array([ObjectId(IdX)])])];
      && !Clean(docs[1], "categories", {})
      && SweepManyFrom(docs, "categories", {}, 1, 0).docs == docs
      && SweepManyFixedFrom(docs, "categories", {}, 1, 0).docs[1] == StoredDoc(IdB, map["categories" := Array([])])
  {
    var a := StoredDoc(IdA, map["categories" := Array([])]);
    var b := StoredDoc(IdB, map["categories" := Array([ObjectId(IdX)])]);
    var docs := [a, b];
    assert ObjectId(IdX) in FieldOf(b, "categories").elems;
    assert Owners(docs, "categories") == docs by {
      assert Owners([b], "categories") == [b];
    }
    SweepManyStopsOnFirstPage(docs);
    SweepManyFixedRepairs(docs, "categories", {}, 1);
    PruneDropsOnlyCategory(b, IdX);
    assert Prune(docs, "categories", {})[1] == PruneOne(b, "categories", {});
  }

  /** Repairing a row whose only category is gone leaves it an empty list. */
  lemma PruneDropsOnlyCategory(d: StoredDoc, x: Id)
    requires d.fields == map["categories" := Array([ObjectId(x)])]
    ensures PruneOne(d, "categories", {}) == StoredDoc(d.id, map["categories" := Array([])])
  {
    assert Found([ObjectId(x)], {}) == [];
    assert d.fields["categories" := Array([])] == map["categories" := Array([])];
  }

  /** A first page whose rows hold only empty lists ends the sweep as written. */
  lemma SweepManyStopsOnFirstPage(docs: seq<StoredDoc>)
    requires |Owners(docs, "categories")| > 0 && FieldOf(Owners(docs, "categories")[0], "categories") == Array([])
    ensures SweepManyFrom(docs, "categories", {}, 1, 0) == SweepResult(docs, [])
  {
    var page := Page(docs, "categories", 0, 1);
    assert page == [Owners(docs, "categories")[0]];
    assert MergeValues(page, "categories", Some([])) == MergeValues([], "categories", Some([]));
    assert MergedIds(page, "categories") == [];
  }

  /**
   * An article whose category field is null and one whose only category is
   * gone, on one page: the page's merged id list is null, so the loop as
   * written pulls nothing and stops, and the second article keeps its
   * dangling category; the corrected loop pulls it.
   */
  lemma SweepManyStopsAtNonArray()
    ensures var docs := [StoredDoc(IdA, map["categories" := Null]), StoredDoc(IdB, map["categories" := Array([ObjectId(IdX)])])];
      && !Clean(docs[1], "categories", {})
      && SweepManyFrom(docs, "categories", {}, 2, 0) == SweepResult(docs, [])
      && SweepManyFixedFrom(docs, "categories", {}, 2, 0).docs[1] == StoredDoc(IdB, map["categories" := Array([])])
  {
    var a := StoredDoc(IdA, map["categories" := Null]);
    var b := StoredDoc(IdB, map["categories" := Array([ObjectId(IdX)])]);
    var docs := [a, b];
    assert ObjectId(IdX) in FieldOf(b, "categories").elems;
    assert Owners(docs, "categories") == docs by {
      assert Owners([b], "categories") == [b];
    }
    assert Page(docs, "categories", 0, 2) == docs;
    assert !ArraysOnly(docs, "categories") by {
      assert !FieldOf(docs[0], "categories").Array?;
    }
    SweepManyFixedRepairs(docs, "categories", {}, 2);
    PruneDropsOnlyCategory(b, IdX);
    assert Prune(docs, "categories", {})[1] == PruneOne(b, "categories", {});
  }
}

=== FILE: seqs.dfy ===
/**
 * Sequence helpers shared by the model: duplicate-freedom, PHP's
 * `array_unique`, which keeps the first occurrence of every element, and
 * `array_diff`.
 */
module Seqs {

  predicate Distinct<T(==)>(s: seq<T>)
  {
    forall i, j :: 0 <= i < j < |s| ==> s[i] != s[j]
  }

  /** `array_unique`: the elements of `s`, each once, in order of first occurrence. */
  function Dedup<T(==,!new)>(s: seq<T>): (r: seq<T>)
    ensures Distinct(r)
    ensures forall x :: x in r <==> x in s
    ensures |r| <= |s|
    ensures |r| == 0 <==> |s| == 0
  {
    if s == [] then []
    else
      var r := Dedup(s[..|s| - 1]);
      assert forall x :: x in s <==> x in s[..|s| - 1] || x == s[|s| - 1];
      if s[|s| - 1] in r then r else r + [s[|s| - 1]]
  }

  /** `array_unique` of a list grown by one element. */
  lemma DedupSnoc<T(!new)>(s: seq<T>, x: T)
    ensures Dedup(s + [x]) == if x in s then Dedup(s) else Dedup(s) + [x]
  {
    assert (s + [x])[..|s + [x]| - 1] == s;
  }

  /** `array_diff`: the elements of `a` that do not occur in `b`, in order. */
  function Without<T(==,!new)>(a: seq<T>, b: seq<T>): (r: seq<T>)
    ensures forall x :: x in r <==> x in a && x !in b
    ensures |r| <= |a|
  {
    if a == [] then []
    else
      assert forall x :: x in a <==> x == a[0] || x in a[1..];
      (if a[0] in b then [] else [a[0]]) + Without(a[1..], b)
  }

  /** Concatenation is associative. */
  lemma AppendAssoc<T>(a: seq<T>, b: seq<T>, c: seq<T>)
    ensures a + b + c == a + (b + c)
  {
  }
}

=== FILE: storage.dfy ===
/**
 * The document collection as the repository sees it: the stored rows in
 * natural order, and the log of driver calls made against it. Each driver
 * call is one step on this state.
 */
module Storage {
  import opened Ids
  import opened Seqs

  /** A stored row: its `_id` and its other fields. */
  datatype StoredDoc = StoredDoc(id: Id, fields: map<string, Value>)

  /** One round trip to the database. */
  datatype Call =
    | BatchInsert(rows: seq<StoredDoc>)
    | Update(id: Id, fields: map<string, Value>)
    | Remove(ids: seq<Id>)
    | RemoveMatching(field: string, values: seq<Value>)
    | PullMatching(field: string, values: seq<Value>)

  /** `update(['_id' => id], payload)`: the row with that id takes the payload's fields. */
  function ReplaceFields(docs: seq<StoredDoc>, id: Id, fields: map<string, Value>): (r: seq<StoredDoc>)
    ensures |r| == |docs|
    ensures forall i :: 0 <= i < |docs| ==> r[i].id == docs[i].id
    ensures forall i :: 0 <= i < |docs| ==>
      r[i].fields == if docs[i].id == id then fields else docs[i].fields
  {
    if docs == [] then []
    else [if docs[0].id == id then StoredDoc(id, fields) else docs[0]] + ReplaceFields(docs[1..], id, fields)
  }

  /** `remove(['_id' => ['$in' => ids]])`: the rows whose id is listed are gone, the rest keep their order. */
  function RemoveIds(docs: seq<StoredDoc>, ids: seq<Id>): (r: seq<StoredDoc>)
    ensures forall i :: 0 <= i < |r| ==> r[i] in docs && r[i].id !in ids
    ensures forall i :: 0 <= i < |docs| && docs[i].id !in ids ==> docs[i] in r
  {
    if docs == [] then []
    else (if docs[0].id in ids then [] else [docs[0]]) + RemoveIds(docs[1..], ids)
  }

  /** The value of `field` in a row, null when the row lacks it. */
  function FieldOf(d: StoredDoc, field: string): Value
  {
    if field in d.fields then d.fields[field] else Null
  }

  /** Whether `{field: {$in: values}}` selects the row. */
  predicate FieldIn(d: StoredDoc, field: string, values: seq<Value>)
  {
    field in d.fields && d.fields[field] in values
  }

  /** `remove([field => ['$in' => values]], ['multiple' => 1])`: every selected row is gone. */
  function RemoveWhereIn(docs: seq<StoredDoc>, field: string, values: seq<Value>): (r: seq<StoredDoc>)
    ensures |r| <= |docs|
  {
    if docs == [] then []
    else (if FieldIn(docs[0], field, values) then [] else [docs[0]]) + RemoveWhereIn(docs[1..], field, values)
  }

  /** The rows left by a removal are exactly the rows it did not select. */
  lemma {:induction false} RemoveWhereInMembers(docs: seq<StoredDoc>, field: string, values: seq<Value>)
    ensures forall d :: d in RemoveWhereIn(docs, field, values) <==> d in docs && !FieldIn(d, field, values)
  {
    if docs != [] {
      RemoveWhereInMembers(docs[1..], field, values);
      assert forall d :: d in docs <==> d == docs[0] || d in docs[1..];
    }
  }

  /** `$pull` of `values` from one row's array field; other rows and fields are untouched. */
  function PullOne(d: StoredDoc, field: string, values: seq<Value>): (r: StoredDoc)
    ensures r.id == d.id && r.fields.Keys == d.fields.Keys
    ensures forall k :: k in d.fields && k != field ==> r.fields[k] == d.fields[k]
    ensures field in d.fields && d.fields[field].Array? ==>
      r.fields[field].Array? && forall x :: x in r.fields[field].elems <==> x in d.fields[field].elems && x !in values
    ensures !(field in d.fields && d.fields[field].Array?) ==> r == d
  {
    if field in d.fields && d.fields[field].Array? then
      StoredDoc(d.id, d.fields[field := Array(Without(d.fields[field].elems, values))])
    else d
  }

  /** `update([], ['$pull' => [field => ['$in' => values]]], ['multiple' => 1])` over every row. */
  function PullIn(docs: seq<StoredDoc>, field: string, values: seq<Value>): (r: seq<StoredDoc>)
    ensures |r| == |docs|
    ensures forall i :: 0 <= i < |docs| ==> r[i] == PullOne(docs[i], field, values)
  {
    if docs == [] then [] else [PullOne(docs[0], field, values)] + PullIn(docs[1..], field, values)
  }

  /** What one driver call does to the stored rows. */
  function Apply(docs: seq<StoredDoc>, c: Call): seq<StoredDoc>
  {
    match c
    case BatchInsert(rows) => docs + rows
    case Update(id, fields) => ReplaceFields(docs, id, fields)
    case Remove(ids) => RemoveIds(docs, ids)
    case RemoveMatching(field, values) => RemoveWhereIn(docs, field, values)
    case PullMatching(field, values) => PullIn(docs, field, values)
  }

  /** The rows after a sequence of driver calls, applied in order. */
  function Replay(docs: seq<StoredDoc>, calls: seq<Call>): seq<StoredDoc>
    decreases |calls|
  {
    if calls == [] then docs else Apply(Replay(docs, calls[..|calls| - 1]), calls[|calls| - 1])
  }

  /** Replaying one more call applies it to what the earlier calls left. */
  lemma ReplayStep(docs: seq<StoredDoc>, calls: seq<Call>, c: Call)
    ensures Replay(docs, calls + [c]) == Apply(Replay(docs, calls), c)
  {
    assert (calls + [c])[..|calls|] == calls;
  }

  /** Replaying two runs of calls one after the other is replaying them joined. */
  lemma {:induction false} ReplayAppend(docs: seq<StoredDoc>, a: seq<Call>, b: seq<Call>)
    ensures Replay(docs, a + b) == Replay(Replay(docs, a), b)
    decreases |b|
  {
    if b == [] {
      assert a + b == a;
    } else {
      ReplayAppend(docs, a, b[..|b| - 1]);
      assert (a + b)[..|a + b| - 1] == a + b[..|b| - 1];
    }
  }

  /**
   * A collection handle. `base` is the content before the first logged call;
   * the rows are always what the logged calls made of it.
   */
  class Collection {
    var docs: seq<StoredDoc>
    var log: seq<Call>
    ghost var base: seq<StoredDoc>

    ghost predicate Valid()
      reads this
    {
      docs == Replay(base, log)
    }

    constructor (initial: seq<StoredDoc>)
      ensures docs == initial && log == [] && Valid()
    {
      docs := initial;
      log := [];
      base := initial;
    }

    /** One driver call: the rows take its effect and the call joins the log. */
    method Perform(c: Call)
      requires Valid()
      modifies this
      ensures Valid() && base == old(base)
      ensures docs == Apply(old(docs), c)
      ensures log == old(log) + [c]
    {
      docs := Apply(docs, c);
      log := log + [c];
      assert log[..|log| - 1] == old(log);
    }

    method BatchInsert(rows: seq<StoredDoc>)
      requires Valid()
      modifies this
      ensures Valid() && base == old(base)
      ensures docs == old(docs) + rows
      ensures log == old(log) + [Call.BatchInsert(rows)]
    {
      Perform(Call.BatchInsert(rows));
    }

    method Update(id: Id, fields: map<string, Value>)
      requires Valid()
      modifies this
      ensures Valid() && base == old(base)
      ensures docs == ReplaceFields(old(docs), id, fields)
      ensures log == old(log) + [Call.Update(id, fields)]
    {
      Perform(Call.Update(id, fields));
    }

    method Remove(ids: seq<Id>)
      requires Valid()
      modifies this
      ensures Valid() && base == old(base)
      ensures docs == RemoveIds(old(docs), ids)
      ensures log == old(log) + [Call.Remove(ids)]
    {
      Perform(Call.Remove(ids));
    }

    method RemoveWhere(field: string, values: seq<Value>)
      requires Valid()
      modifies this
      ensures Valid() && base == old(base)
      ensures docs == RemoveWhereIn(old(docs), field, values)
      ensures log == old(log) + [Call.RemoveMatching(field, values)]
    {
      Perform(Call.RemoveMatching(field, values));
    }

    method Pull(field: string, values: seq<Value>)
      requires Valid()
      modifies this
      ensures Valid() && base == old(base)
      ensures docs == PullIn(old(docs), field, values)
      ensures log == old(log) + [Call.PullMatching(field, values)]
    {
      Perform(Call.PullMatching(field, values));
    }
  }
}

=== FILE: wrappers.dfy ===
/** Option and Result, the failure-carrying wrappers used across the model. */
module Wrappers {

  datatype Option<+T> = None | Some(value: T)

  datatype Result<+R, +E> = Success(value: R) | Failure(error: E)
}
